=== FILE: README.md ===
# Proctoring session core in Dafny

This project models the core of a video-proctoring service. The **session aggregate** is one interview session. It holds:

- the candidate fields;
- the event log;
- four violation counters;
- an integrity score;
- a lifecycle status.

The model covers the rules that change a session and the rules that read it:

- **Integrity scorer**: 100 minus a weighted sum of the counters, clamped at 0.
- **Report generator**: the counter total, the "Xm Ys" duration text, the log without `info` events, and a PASS/REVIEW/FAIL band.
- **Request handlers**:
  - creating a session;
  - single and bulk event appends, both through a first-match substring classifier;
  - ending a session;
  - the 24-hex-digit id check;
  - page/limit listing.
- **Browser-side rules**:
  - the suspicious-object filter and its high/medium/low risk table;
  - the candidate form's validation, including the unanchored email pattern `\S+@\S+\.\S+`.

Every handler is a pure function returning a `Result`:

- The session store's lookup is a parameter `found: Option<Session>`.
- The clock is a parameter `now`, in milliseconds.
- The HTTP response is `Ok(value)` or an `Error` (400, 404 or 500).

Modules, in dependency order:

| file | module | models |
|---|---|---|
| wrappers.dfy | `Wrappers` | `Option`, `Result` |
| strings.dfy | `Strings` | the JavaScript string operations used: `includes`, `trim` and `\s`, ASCII `toLowerCase`, number printing, `join` |
| session.dfy | `SessionModel` | backend/models/Session.js: schema, score, report |
| classifier.dfy | `Classifier` | the violation classifier shared by both append paths |
| controller.dfy | `SessionController` | backend/controllers/sessionController.js |
| client_descriptions.dfy | `ClientDescriptions` | the violation descriptions the client sends, and where they are counted |
| detection.dfy | `Detection` | src/utils/detectionUtils.js: filter and risk levels |
| candidate_form.dfy | `CandidateForm` | src/components/CandidateForm.jsx: validation, change, submit |

Behaviour of the code worth knowing:

- **Event ids are not unique in a session.** The single-event path stores every event, repeated ids included. The bulk path compares ids only against the snapshot taken before the call, so one batch can store the same new id twice. This is shown by `SessionController.AddEventKeepsDuplicates` and `SessionController.BatchDuplicatesBothApplied`. The "once singly, then in bulk" case still stores one event, as `SessionController.SingleThenBulkStoresOnce` proves.
- **A duration of 0 also prints "N/A".** The duration is tested for truthiness, not for presence.
- **Seconds keep the sign of the duration.** The formatter uses JavaScript's truncating `%`. A negative duration, from a clock that went backwards, prints with non-positive seconds.
- **Required fields reject only the empty string.** A whitespace-only candidate name is accepted by the server; only the browser form trims.
- **Bulk append reports schema failures as 500.** An event the schema rejects makes the whole save fail, and the bulk handler's catch block answers 500, not 400.

## Model

| member | source | states |
|---|---|---|
| SessionModel.ParseSeverity | backend/models/Session.js:8 | a severity is accepted exactly when it is one of "info", "warning", "error" |
| SessionModel.ParseSeverityName | backend/models/Session.js:8 | each severity's stored name reads back as that severity |
| SessionModel.Fresh | backend/models/Session.js:11-27 | a new session is active, unrecorded, with no events, no end time, no duration, zero counters and score 100, and keeps the given candidate fields and start time |
| SessionModel.FreshScoreConsistent | backend/models/Session.js:20-25 | the default score 100 agrees with the default all-zero counters |
| SessionModel.Bump | backend/controllers/sessionController.js:56 | incrementing a counter raises that category by one and leaves the other three alone |
| SessionModel.IntegrityScore | backend/models/Session.js:33-45 | the score lies in 0..100; it is 100 exactly when no violation was counted; it is 0 exactly when the weighted deduction reaches 100; otherwise score plus deduction is 100 |
| SessionModel.ScoreAfterBump | backend/models/Session.js:33-45 | one more violation lowers the score by that category's weight (5, 10, 15, 20), clamped at 0, so it never increases |
| SessionModel.ScoreAntitone | backend/models/Session.js:37-43 | counters that are pointwise larger never give a larger score |
| SessionModel.ScoreExamples | backend/models/Session.js:37-43 | counters (3,1,1,1) score 40; (0,0,0,6) and (20,0,0,0) score 0 |
| SessionModel.Rescore | backend/models/Session.js:43 | recomputing the score changes only the score, leaves it consistent with the counters, and is the identity on a consistent session (idempotent) |
| SessionModel.Recommend | backend/models/Session.js:69 | PASS exactly when the score is at least 80, FAIL exactly below 60, REVIEW otherwise |
| SessionModel.RecommendMonotone | backend/models/Session.js:69 | a higher score never gets a worse band |
| SessionModel.RecommendBoundaries | backend/models/Session.js:69 | 80 is PASS, 79 and 60 are REVIEW, 59 is FAIL |
| SessionModel.JsRem | backend/models/Session.js:61 | JavaScript's `%`: the remainder is smaller than the divisor in magnitude, equals the Euclidean one for a non-negative dividend, and is non-positive for a negative dividend; in both cases the dividend minus the remainder is a multiple of the divisor |
| SessionModel.FormatDuration | backend/models/Session.js:61 | the text is "N/A" exactly when the duration is absent or 0 |
| SessionModel.ReadBackSplit | backend/models/Session.js:61 | reading "<m>m <s>s" back gives 60·m + s for digit runs m and s with s below 60 |
| SessionModel.FormatDurationRoundTrip | backend/models/Session.js:61 | a positive duration is recovered exactly from its "Xm Ys" text, so minutes are the floor of d/60 and seconds the remainder |
| SessionModel.FormatDurationExamples | backend/models/Session.js:61 | 125 prints "2m 5s"; absent and 0 print "N/A" |
| SessionModel.NonInfo | backend/models/Session.js:67 | the report's events are exactly the log's non-info events, nothing added |
| SessionModel.NonInfoAppend | backend/models/Session.js:67 | the filter commutes with concatenation, so log order is kept |
| SessionModel.GenerateReport | backend/models/Session.js:48-72 | the counters are copied, the total is their sum, the events are the non-info ones in log order (the filter `NonInfo`), the score is copied, the band is PASS/FAIL exactly by the 80/60 thresholds, the duration text is the formatter's (so "N/A" exactly for an absent or zero duration, and otherwise text that reads back as the duration), and the candidate fields and times are copied |
| SessionModel.ReportBandFromTotal | backend/models/Session.js:48-72 | for a consistent session, at most one violation always reports PASS and nine or more always report FAIL |
| Classifier.Classify | backend/controllers/sessionController.js:54-63 | only "violation" events are classified; the category found has its phrase in the description and no earlier rule's phrase is there; nothing is found exactly when the type differs or no phrase occurs |
| Classifier.ClassifyPicksEarliest | backend/controllers/sessionController.js:54-63 | the first rule whose phrase occurs wins, whatever later phrases also occur |
| Classifier.LookingAwayBeatsMultipleFaces | backend/controllers/sessionController.js:55-60 | a description with both "looking away" and "Multiple faces" counts only as looking away |
| Classifier.Tally | backend/controllers/sessionController.js:284-295 | a classified event raises exactly its category by one and the total by one; an unclassified event changes nothing |
| SessionController.HexTextValid | backend/controllers/sessionController.js:91 | the hexadecimal text of a byte string, in upper or lower case, passes `^[0-9a-fA-F]{24}$` exactly when it has 12 bytes |
| SessionController.ValidSessionIdIgnoresCase | backend/controllers/sessionController.js:91 | the id check accepts an id exactly when it accepts the id lower-cased, so `A-F` count like `a-f` |
| SessionController.ValidSessionIdExamples | backend/controllers/sessionController.js:243 | 24 hexadecimal digits in lower, upper or mixed case pass; 23 digits, or a `g`, fail |
| SessionController.CreateSession | backend/controllers/sessionController.js:4-28 | creation succeeds exactly when name, email and title are non-empty, giving the default session; otherwise 400 |
| SessionController.ToEvent | backend/models/Session.js:3-9 | an event passes the schema exactly when id, type and description are non-empty and the severity is an enum name; its fields are carried over |
| SessionController.Record | backend/controllers/sessionController.js:45-64 | pushing an event appends it to the log and tallies its classification; nothing else changes |
| SessionController.Append | backend/controllers/sessionController.js:44-67 | a single append adds the event at the end of the log, bumps the counter its description classifies into (if any), sets the score to agree with the counters and leaves every other field as it was |
| SessionController.AddEvent | backend/controllers/sessionController.js:31-82 | a missing session is 404; otherwise success exactly when the event passes the schema, and a rejected event is always 400; the event is appended after the old log; the total rises by 0 or 1 and no counter falls; the score is recomputed; the result is the single append `Append`, so every other field is kept |
| SessionController.AddEventCounts | backend/controllers/sessionController.js:53-64 | the counters after a single append are the old ones tallied with the classifier's verdict |
| SessionController.AddEventKeepsDuplicates | backend/controllers/sessionController.js:44-51 | the single path stores an event even when its id is already present |
| SessionController.Survivors | backend/controllers/sessionController.js:258-264 | an event survives exactly when its id is non-empty, not in the pre-call id set, and it is not a "system" event mentioning "AI models loaded"; never more survivors than inputs |
| SessionController.SurvivorsAppend | backend/controllers/sessionController.js:260-264 | the filter commutes with concatenation, so survivors keep input order |
| SessionController.ToEvents | backend/controllers/sessionController.js:274-282 | a batch passes the schema exactly when every event does, giving the converted events in order |
| SessionController.RecordAll | backend/controllers/sessionController.js:275-296 | recording a batch appends it after the old log and changes nothing but log and counters |
| SessionController.RecordAllCounts | backend/controllers/sessionController.js:284-295 | each counter rises by exactly the number of the batch's events classified into it |
| SessionController.BulkAddEvents | backend/controllers/sessionController.js:229-315 | a missing or empty list is 400 before the id check (400), which comes before the lookup (404); the call succeeds exactly when the list, id and lookup pass and every survivor passes the schema, so a call with no survivors succeeds; the applied count is the number of survivors; no survivor leaves the session unchanged; otherwise the old log is a prefix, the log grows by the applied count and the score is consistent; a 500 happens exactly when some survivor fails the schema |
| SessionController.RescoreOnceIsRescoreEach | backend/controllers/sessionController.js:298-299 | one recomputation after the batch equals recomputing after every event |
| SessionController.BulkIsSequentialAppends | backend/controllers/sessionController.js:274-299 | a successful bulk call leaves the session that single appends of the survivors, in order, would leave |
| SessionController.SingleThenBulkStoresOnce | backend/controllers/sessionController.js:259-262 | an event appended singly and then sent in a bulk call is stored once |
| SessionController.ModelLoadedNoticeIsDropped | backend/controllers/sessionController.js:263 | the client's "AI models loaded" system notice is never stored by the bulk path |
| SessionController.BatchDuplicatesBothApplied | backend/controllers/sessionController.js:259-262 | two events with the same new id in one batch are both stored |
| SessionController.EndSession | backend/controllers/sessionController.js:85-140 | a malformed id is 400 and a missing session 404; a completed session comes back unchanged; otherwise the session is completed with end time now, duration the floor of elapsed seconds, the recording flag true only when sent true, events and counters kept, and a consistent, unchanged score; no other field changes |
| SessionController.EndSessionIdempotent | backend/controllers/sessionController.js:106-113 | ending an ended session again, at any time and with any flag, returns it unchanged |
| SessionController.GetReport | backend/controllers/sessionController.js:143-168 | a missing session is 404, and a found one always gets its report |
| SessionController.EndedReportReadsBack | backend/controllers/sessionController.js:116-124 | after ending a session at least a second old, its report's duration text reads back as the whole seconds it lasted |
| SessionController.WithStatus | backend/controllers/sessionController.js:173-177 | the query `status ? { status } : {}` keeps exactly the sessions whose stored status is the given text, or all of them for an absent (empty) text |
| SessionController.WithStatusAppend | backend/controllers/sessionController.js:175-178 | the status filter distributes over concatenation, so matching sessions keep the store's newest-first order |
| SessionController.UnknownStatusMatchesNothing | backend/controllers/sessionController.js:175-177 | a status text outside the enum, such as `foo`, selects no session |
| SessionController.CeilDivBounds | backend/controllers/sessionController.js:188 | `Math.ceil(total / limit)` is the least page count whose pages hold every matching session |
| SessionController.Window | backend/controllers/sessionController.js:177-180 | skip/limit returns at most `limit` items, in order from index `skip`, and a full page whenever enough items remain |
| SessionController.Paginate | backend/controllers/sessionController.js:177-192 | a page from 1 up succeeds (an earlier page asks for a negative skip and is refused); total is the number of sessions, currentPage echoes the page, at most `limit` sessions are listed, and totalPages is the ceiling of total/limit |
| SessionController.ListSessions | backend/controllers/sessionController.js:171-200 | an absent page counts as 1 and an absent limit as 10; a page from 1 up succeeds; total is the number of matches, currentPage is the page asked for (or 1), at most the limit (or 10) sessions are listed, and totalPages is the ceiling of total over that limit |
| SessionController.DefaultListing | backend/controllers/sessionController.js:173-180 | with no page and no limit the listing is page 1 holding the first ten matching sessions, newest first |
| SessionController.ListingCoversEachSession | backend/controllers/sessionController.js:177-188 | the matching session at index q·limit+m is item m of page q+1, and that page is within totalPages |
| SessionController.PageCovers | backend/controllers/sessionController.js:177-188 | on any list, the session at index q·limit+m is item m of page q+1, and that page is within totalPages |
| SessionController.ListingPageContents | backend/controllers/sessionController.js:177-180 | item j of page q+1 is the matching session at index q·limit+j |
| ClientDescriptions.MultipleFacesText | src/components/VideoProctoring.jsx:168 | the face-count description never holds a 'w' or an 'N', whatever the count |
| ClientDescriptions.NoFaceTextClassified | src/components/VideoProctoring.jsx:152 | "No face detected for >10 seconds" counts as no face detected |
| ClientDescriptions.MultipleFacesTextClassified | src/components/VideoProctoring.jsx:168 | "Multiple faces detected (n)" counts as multiple faces for every n |
| ClientDescriptions.LookingAwayTextClassified | src/components/VideoProctoring.jsx:198 | "Candidate looking away for >5 seconds" counts as looking away |
| ClientDescriptions.ObjectsTextClassified | src/components/VideoProctoring.jsx:228-230 | "Suspicious objects detected: ..." over any list of the client's object classes counts as suspicious objects |
| Detection.IncludesAny | src/utils/detectionUtils.js:76-81 | `some(item => name.includes(item))` holds exactly when some item occurs in the name |
| Detection.OverlapsAny | src/utils/detectionUtils.js:63-65 | the filter's test holds exactly when some item occurs in the name or the name occurs in some item |
| Detection.GetSuspicionLevel | src/utils/detectionUtils.js:72-87 | high exactly for a high-risk class above 0.7; medium exactly for a high-risk class in (0.5, 0.7] or a medium-risk-only class above 0.6; low otherwise |
| Detection.SuspicionMonotone | src/utils/detectionUtils.js:83-86 | a more confident detection of the same class is never rated lower |
| Detection.SuspicionIgnoresCase | src/utils/detectionUtils.js:76-81 | the rating depends on the class only through its lower-cased name |
| Detection.HeadphonesAreHighRisk | src/utils/detectionUtils.js:73-84 | "Headphones" is high-risk through "phone": 0.9 is high, exactly 0.7 is medium, 0.5 is low |
| Detection.Tag | src/utils/detectionUtils.js:66-69 | a kept prediction is unchanged except for the added suspicion level of its class and score |
| Detection.FilterSuspiciousObjects | src/utils/detectionUtils.js:60-70 | the output holds exactly the tagged suspicious predictions of the input, is never longer, and every element carries its own level |
| Detection.FilterAppend | src/utils/detectionUtils.js:60-70 | the filter commutes with concatenation, so input order is kept |
| Detection.FilterIdempotent | src/utils/detectionUtils.js:60-70 | filtering the output again returns it unchanged |
| Detection.EmptyClassIsKept | src/utils/detectionUtils.js:62-64 | an empty class name is kept, rated low, because every item contains the empty string |
| Strings.Trim | src/components/CandidateForm.jsx:30 | `trim()` is empty exactly when the text is all whitespace, and otherwise starts and ends with non-whitespace; the result is a slice of the text with only whitespace cut from either end |
| Strings.ToLower | src/utils/detectionUtils.js:62 | lower-casing keeps the length, leaves no upper-case ASCII letter, moves each of A-Z to its lower-case letter and keeps every other character |
| Strings.ParseNatToString | backend/models/Session.js:61 | the printed decimal form of a number reads back as the number |
| CandidateForm.Set | src/components/CandidateForm.jsx:13-16 | a change replaces the named field and no other |
| CandidateForm.MatchEmail | src/components/CandidateForm.jsx:36 | the scanner accepts exactly the texts that contain `\S+@\S+\.\S+` somewhere |
| CandidateForm.EmailPatternExamples | src/components/CandidateForm.jsx:36 | "a@b.c" and text around it pass; "a@b", "@b.c" and "a@.c" fail |
| CandidateForm.EmailPatternNotBlank | src/components/CandidateForm.jsx:34-38 | a matching email is never blank |
| CandidateForm.ValidateForm | src/components/CandidateForm.jsx:27-46 | a field gets an error exactly when it is blank after trim, or, for the email, when it does not match; a blank email gets only "Email is required" and a non-blank one only the format message |
| CandidateForm.ValidIff | src/components/CandidateForm.jsx:27-45 | the form is valid exactly when name and title are not blank and the email matches the pattern |
| CandidateForm.WhitespaceIsRequired | src/components/CandidateForm.jsx:30-42 | a name or title that is empty or all whitespace gets its "required" message |
| CandidateForm.EmptyFormErrors | src/components/CandidateForm.jsx:27-45 | the empty form reports all three fields, the email as missing |
| CandidateForm.HandleChange | src/components/CandidateForm.jsx:11-25 | only the named field changes; its error, if any, becomes empty; other errors and the set of keys are kept |
| CandidateForm.ChangeClearsOnlyThatField | src/components/CandidateForm.jsx:18-24 | after typing, the field shows no error and every other field shows what it showed |
| CandidateForm.ChangesCompose | src/components/CandidateForm.jsx:11-25 | typing into one field twice equals typing the second value once, and changes to different fields commute |
| CandidateForm.HandleSubmit | src/components/CandidateForm.jsx:48-53 | the error map becomes `validateForm`'s messages, and the form is passed on, unchanged, exactly when they are empty |
| CandidateForm.SubmittedFormIsComplete | src/components/CandidateForm.jsx:48-53 | a submitted form has a non-blank name and title and a matching email |

## Left out

- Persistence is not modelled. The store's `findById`, `save`, `countDocuments` and the sort by `createdAt` become parameters: the looked-up session and the already sorted list.
- SessionController.AddEvent: answers only 404 for a missing session. The code never checks the id's format here (sessionController.js:36), so an id that is not an ObjectId makes `findById` throw a cast error, which the catch block answers with 400 and the error's message (lines 76-80); with the lookup as a parameter the model cannot tell that case apart.
- SessionController.GetReport: answers only 404 for a missing session, for the same reason: a malformed id makes `findById` (line 147) throw, and the catch block answers 400 (lines 162-166).
- Mongoose's own error message texts are not modelled. The messages of failed saves are placeholders; only the status codes are modelled.
- The casts Mongoose applies to stored values are not modelled. Counters are non-negative integers; timestamps and times are integers in milliseconds, and an invalid date is not modelled.
- Concurrency is not modelled. The read-modify-write race between concurrent appends does not exist here, because each handler is one atomic function.
- No operation produces the terminated status, and none is modelled. `EndSession` accepts a terminated session and completes it, as the code does.
- SessionController.ListSessions: requires a positive limit when one is given, because the store's behaviour for a zero or negative limit (no limit, or a limit by absolute value) is not modelled. The query's page and limit are taken as integers, while the code echoes the page text as received. An absent status is the empty text, which is falsy in the code too.
- SessionModel.GenerateReport: the total sums the four counters. It does not model `Object.values` walking a store subdocument.
- Strings.ToLower: lower-cases only the ASCII letters A-Z; full Unicode case mapping is not modelled, because the detector's class labels are ASCII. The two differ on some non-ASCII text: JavaScript lower-cases the KELVIN SIGN U+212A to 'k', so `"\u212Aeyboard"` contains "keyboard" for the JavaScript suspicious-object filter but not in the model.
- Strings.IsJsSpace: lists the ECMAScript whitespace and line-terminator characters. No other Unicode data is modelled.
- The remaining parts of src/utils/detectionUtils.js are not modelled. `calculateGazeDirection` and `analyzeFacePosition` are floating-point geometry; `formatTimestamp` depends on locale; `generateEventId` depends on time and randomness.
- Most of src/components/VideoProctoring.jsx is not modelled: camera and recorder use, model loading and inference, timers, the sync loop and its retry. Only the violation descriptions it sends are modelled.
- Rendering is not modelled: src/components/ReportViewer.jsx, src/App.jsx and the form's markup. Neither are the request wrappers (src/services/api.js) or route wiring (backend/routes/sessionRoutes.js).
- `getSession` just returns the looked-up session or a 404, and is not modelled separately.
- An absent event field is modelled as the empty string. Where the code would throw on an absent description (`includes` on undefined), the model reaches the same status through schema validation.

=== FILE: candidate_form.dfy ===
/** The candidate form of src/components/CandidateForm.jsx: three text fields,
    the per-field error messages `validateForm` produces, the error clearing of
    `handleChange` and the validation gate of `handleSubmit`. */
module CandidateForm {
  import opened Wrappers
  import opened Strings

  datatype Field = CandidateName | CandidateEmail | InterviewTitle

  /** The form state. Every field starts as the empty string. */
  datatype FormData = FormData(candidateName: string, candidateEmail: string, interviewTitle: string)

  const EmptyForm := FormData("", "", "")

  /** The error state: a message per field; an absent or empty message shows nothing. */
  type Errors = map<Field, string>

  const NameRequired := "Candidate name is required"
  const EmailRequired := "Email is required"
  const EmailInvalid := "Please enter a valid email address"
  const TitleRequired := "Interview title is required"

  function Get(form: FormData, f: Field): string
  {
    match f
    case CandidateName => form.candidateName
    case CandidateEmail => form.candidateEmail
    case InterviewTitle => form.interviewTitle
  }

  /** The form with one field replaced. */
  function Set(form: FormData, f: Field, value: string): (r: FormData)
    ensures Get(r, f) == value
    ensures forall g | g != f :: Get(r, g) == Get(form, g)
  {
    match f
    case CandidateName => form.(candidateName := value)
    case CandidateEmail => form.(candidateEmail := value)
    case InterviewTitle => form.(interviewTitle := value)
  }

  /*** The email pattern ***/

  /** `s` matches `\S+@\S+\.\S+` with the '@' at index `a` and the '.' at index `d`:
      a non-space character before the '@', a non-empty run of non-space characters
      between the two, and a non-space character after the '.'. Since the pattern
      is not anchored, nothing else of `s` matters. */
  predicate MatchAt(s: string, a: nat, d: nat)
  {
    && 0 < a && a + 1 < d && d + 1 < |s|
    && s[a] == '@' && s[d] == '.'
    && !IsJsSpace(s[a - 1]) && !IsJsSpace(s[d + 1])
    && forall k | a < k < d :: !IsJsSpace(s[k])
  }

  /** `/\S+@\S+\.\S+/.test(s)`. */
  predicate EmailPattern(s: string)
  {
    exists a: nat, d: nat | a < |s| && d < |s| :: MatchAt(s, a, d)
  }

  /** Decides the email pattern by scanning: for each '@' preceded by a non-space
      character, walk the non-space run after it looking for a '.' that is at least
      two past the '@' and followed by a non-space character. */
  method MatchEmail(s: string) returns (ok: bool)
    ensures ok <==> EmailPattern(s)
  {
    var a := 1;
    while a < |s|
      invariant 1 <= a <= |s| + 1
      invariant forall a0: nat, d: nat | a0 < a && d < |s| :: !MatchAt(s, a0, d)
    {
      if s[a] == '@' && !IsJsSpace(s[a - 1]) {
        var j := a + 1;
        while j < |s| && !IsJsSpace(s[j])
          invariant a + 1 <= j <= |s|
          invariant forall k | a < k < j :: !IsJsSpace(s[k])
          invariant forall d: nat | d < j :: !MatchAt(s, a, d)
        {
          if j >= a + 2 && s[j] == '.' && j + 1 < |s| && !IsJsSpace(s[j + 1]) {
            assert MatchAt(s, a, j);
            return true;
          }
          j := j + 1;
        }
      }
      a := a + 1;
    }
    return false;
  }

  /** The pattern accepts "a@b.c" and matches inside surrounding text, but rejects
      "a@b" (no dot), "@b.c" (nothing before the '@') and "a@.c" (nothing between the
      '@' and the dot). */
  lemma EmailPatternExamples()
    ensures EmailPattern("a@b.c")
    ensures EmailPattern("mail me: a@b.c today")
    ensures !EmailPattern("a@b") && !EmailPattern("@b.c") && !EmailPattern("a@.c")
  {
    assert MatchAt("a@b.c", 1, 3);
    assert MatchAt("mail me: a@b.c today", 10, 12);
  }

  /** Whatever matches the pattern holds an '@', so it is not blank. */
  lemma EmailPatternNotBlank(s: string)
    requires EmailPattern(s)
    ensures !Blank(s)
  {
    var a: nat, d: nat :| a < |s| && d < |s| && MatchAt(s, a, d);
    assert !IsJsSpace(s[a]);
  }

  /*** Validation ***/

  /** `validateForm`'s error map: a "required" message for each field that is blank
      once trimmed, and for a non-blank email that does not match the pattern, the
      invalid-address message instead. The pattern is tested on the untrimmed text. */
  function ValidateForm(form: FormData): (errors: Errors)
    ensures CandidateName in errors <==> Blank(form.candidateName)
    ensures InterviewTitle in errors <==> Blank(form.interviewTitle)
    ensures CandidateEmail in errors <==> Blank(form.candidateEmail) || !EmailPattern(form.candidateEmail)
    ensures CandidateName in errors ==> errors[CandidateName] == NameRequired
    ensures InterviewTitle in errors ==> errors[InterviewTitle] == TitleRequired
    ensures Blank(form.candidateEmail) ==> errors[CandidateEmail] == EmailRequired
    ensures !Blank(form.candidateEmail) && CandidateEmail in errors ==> errors[CandidateEmail] == EmailInvalid
  {
    var e0: Errors := map[];
    var e1 := if Trim(form.candidateName) == "" then e0[CandidateName := NameRequired] else e0;
    var e2 :=
      if Trim(form.candidateEmail) == "" then e1[CandidateEmail := EmailRequired]
      else if !EmailPattern(form.candidateEmail) then e1[CandidateEmail := EmailInvalid]
      else e1;
    if Trim(form.interviewTitle) == "" then e2[InterviewTitle := TitleRequired] else e2
  }

  /** The form is valid when the error map has no keys. */
  predicate IsValid(form: FormData)
  {
    |ValidateForm(form)| == 0
  }

  /** Valid exactly when the name and the title are not blank and the email matches
      the pattern (a matching email is never blank). */
  lemma ValidIff(form: FormData)
    ensures IsValid(form) <==>
      !Blank(form.candidateName) && !Blank(form.interviewTitle) && EmailPattern(form.candidateEmail)
  {
    var errors := ValidateForm(form);
    if EmailPattern(form.candidateEmail) {
      EmailPatternNotBlank(form.candidateEmail);
    }
    if |errors| == 0 {
      assert CandidateName !in errors && InterviewTitle !in errors && CandidateEmail !in errors;
    } else {
      var f :| f in errors;
      assert f == CandidateName || f == InterviewTitle || f == CandidateEmail;
    }
  }

  /** A whitespace-only (or empty) name or title gets its "required" message. */
  lemma WhitespaceIsRequired(form: FormData)
    requires Blank(form.candidateName) && Blank(form.interviewTitle)
    ensures ValidateForm(form)[CandidateName] == NameRequired
    ensures ValidateForm(form)[InterviewTitle] == TitleRequired
  {
  }

  /** The empty form reports all three fields, the email as missing rather than
      malformed. */
  lemma EmptyFormErrors()
    ensures ValidateForm(EmptyForm) == map[
      CandidateName := NameRequired, CandidateEmail := EmailRequired, InterviewTitle := TitleRequired]
  {
  }

  /*** Events ***/

  /** The state a change leaves behind. */
  datatype FormState = FormState(form: FormData, errors: Errors)

  /** `handleChange`: the named field takes the typed value, and its error, when it
      had a truthy one, is set to the empty string. */
  function HandleChange(st: FormState, f: Field, value: string): (r: FormState)
    ensures Get(r.form, f) == value
    ensures forall g | g != f :: Get(r.form, g) == Get(st.form, g)
    ensures r.errors.Keys == st.errors.Keys
    ensures f in r.errors ==> r.errors[f] == ""
    ensures forall g | g != f && g in st.errors :: r.errors[g] == st.errors[g]
  {
    var errors := if f in st.errors && st.errors[f] != "" then st.errors[f := ""] else st.errors;
    FormState(Set(st.form, f, value), errors)
  }

  /** The message a field shows: its error when that is truthy. */
  function Shown(errors: Errors, f: Field): Option<string>
  {
    if f in errors && errors[f] != "" then Some(errors[f]) else None
  }

  /** After typing into a field it shows no error, and every other field shows what
      it showed before. */
  lemma ChangeClearsOnlyThatField(st: FormState, f: Field, value: string)
    ensures Shown(HandleChange(st, f, value).errors, f) == None
    ensures forall g | g != f :: Shown(HandleChange(st, f, value).errors, g) == Shown(st.errors, g)
  {
  }

  /** Typing into a field twice leaves the state the second change alone would
      leave, and changes to two different fields commute. */
  lemma ChangesCompose(st: FormState, f: Field, g: Field, v: string, w: string)
    ensures HandleChange(HandleChange(st, f, v), f, w) == HandleChange(st, f, w)
    ensures f != g ==>
      HandleChange(HandleChange(st, f, v), g, w) == HandleChange(HandleChange(st, g, w), f, v)
  {
  }

  /** What a submit does: the error map is replaced by a fresh validation, and the
      form is passed on only when that validation found nothing. */
  datatype SubmitOutcome = SubmitOutcome(errors: Errors, submitted: Option<FormData>)

  /** `handleSubmit`. */
  function HandleSubmit(form: FormData): (r: SubmitOutcome)
    ensures r.submitted.Some? <==> IsValid(form)
    ensures r.submitted.Some? ==> r.submitted.value == form
    ensures r.submitted.Some? <==> |r.errors| == 0
    ensures r.errors == ValidateForm(form)
  {
    var errors := ValidateForm(form);
    SubmitOutcome(errors, if |errors| == 0 then Some(form) else None)
  }

  /** A submitted form has a non-blank name and title and an email that matches the
      pattern. */
  lemma SubmittedFormIsComplete(form: FormData)
    ensures HandleSubmit(form).submitted.Some? ==>
      && !Blank(form.candidateName) && !Blank(form.interviewTitle)
      && EmailPattern(form.candidateEmail) && !Blank(form.candidateEmail)
  {
    ValidIff(form);
    if EmailPattern(form.candidateEmail) {
      EmailPatternNotBlank(form.candidateEmail);
    }
  }
}

=== FILE: classifier.dfy ===
/** The violation classifier applied by both append paths of
    backend/controllers/sessionController.js: an ordered list of phrase rules,
    tried case-sensitively against the description, first match wins. */
module Classifier {
  import opened Wrappers
  import opened Strings
  import opened SessionModel

  /** The phrase whose presence in a description selects each category. */
  function Phrase(v: Violation): string
  {
    match v
    case LookingAway => "looking away"
    case NoFaceDetected => "No face detected"
    case MultipleFaces => "Multiple faces"
    case SuspiciousObjects => "Suspicious objects"
  }

  /** The position of each category's rule in the rule order; earlier rules win. */
  function Precedence(v: Violation): nat
  {
    match v
    case LookingAway => 0
    case NoFaceDetected => 1
    case MultipleFaces => 2
    case SuspiciousObjects => 3
  }

  /** The category an event of type `kind` with this description counts towards:
      only events of type "violation" are classified, and the selected category is
      the earliest rule whose phrase occurs in the description. */
  function Classify(kind: string, description: string): (r: Option<Violation>)
    ensures r.Some? ==> kind == "violation" && Contains(description, Phrase(r.value))
    ensures r.Some? ==> forall w | Precedence(w) < Precedence(r.value) :: !Contains(description, Phrase(w))
    ensures r.None? <==> kind != "violation" || forall w :: !Contains(description, Phrase(w))
  {
    if kind != "violation" then None
    else if Contains(description, Phrase(LookingAway)) then Some(LookingAway)
    else if Contains(description, Phrase(NoFaceDetected)) then Some(NoFaceDetected)
    else if Contains(description, Phrase(MultipleFaces)) then Some(MultipleFaces)
    else if Contains(description, Phrase(SuspiciousObjects)) then Some(SuspiciousObjects)
    else None
  }

  /** A description that holds a category's phrase and none of the earlier ones is
      classified into that category, whatever later phrases it also holds. */
  lemma ClassifyPicksEarliest(description: string, v: Violation)
    requires Contains(description, Phrase(v))
    requires forall w | Precedence(w) < Precedence(v) :: !Contains(description, Phrase(w))
    ensures Classify("violation", description) == Some(v)
  {
  }

  /** A description with both "looking away" and "Multiple faces" counts only as
      looking away. */
  lemma LookingAwayBeatsMultipleFaces(description: string)
    requires Contains(description, "looking away") && Contains(description, "Multiple faces")
    ensures Classify("violation", description) == Some(LookingAway)
  {
  }

  /** The counters after one classified event: the selected category goes up by
      one, and nothing changes for an unclassified event. */
  function Tally(c: Counters, cls: Option<Violation>): (r: Counters)
    ensures cls.None? ==> r == c
    ensures cls.Some? ==> Count(r, cls.value) == Count(c, cls.value) + 1
    ensures forall w | cls != Some(w) :: Count(r, w) == Count(c, w)
    ensures Total(r) == Total(c) + (if cls.Some? then 1 else 0)
  {
    if cls.Some? then Bump(c, cls.value) else c
  }
}

=== FILE: client_descriptions.dfy ===
/** The violation descriptions the browser client writes
    (src/components/VideoProctoring.jsx), fed to the classifier of
    backend/controllers/sessionController.js: each lands in the counter it names. */
module ClientDescriptions {
  import opened Strings
  import opened Wrappers
  import opened SessionModel
  import opened Classifier

  /** The object classes the client reports as suspicious. */
  const ClientItems: seq<string> := ["cell phone", "book", "laptop", "tablet", "remote", "keyboard"]

  const NoFaceText := "No face detected for >10 seconds"
  /** "Candidate looking away for >5 seconds", written around the classifier's
      phrase so that the prover sees the phrase inside it. */
  const LookingAwayText := "Candidate " + "looking away" + " for >5 seconds"

  /** The description of a frame showing `n` faces. */
  function MultipleFacesText(n: nat): (r: string)
    ensures 'w' !in r && 'N' !in r
  {
    var digits := NatToString(n);
    assert forall i | 0 <= i < |digits| :: IsDigit(digits[i]);
    "Multiple faces detected (" + digits + ")"
  }

  /** The description of a frame showing the named suspicious objects. */
  function ObjectsText(names: seq<string>): string
  {
    "Suspicious objects detected: " + Join(names, ", ")
  }

  /** A phrase holding a character the text lacks does not occur in it. */
  lemma Lacks(text: string, v: Violation, c: char)
    requires c in Phrase(v) && c !in text
    ensures !Contains(text, Phrase(v))
  {
    if Contains(text, Phrase(v)) {
      ContainsChar(text, Phrase(v), c);
    }
  }

  /** A phrase occurs in any text that embeds it. */
  lemma PhraseWithin(pre: string, v: Violation, post: string)
    ensures Contains(pre + Phrase(v) + post, Phrase(v))
  {
    var text := pre + Phrase(v) + post;
    assert text[|pre|..|pre| + |Phrase(v)|] == Phrase(v);
    assert OccursAt(text, Phrase(v), |pre|);
  }

  /** The missing-face description counts as no face detected. */
  lemma NoFaceTextClassified()
    ensures Classify("violation", NoFaceText) == Some(NoFaceDetected)
  {
    Lacks(NoFaceText, LookingAway, 'w');
    assert OccursAt(NoFaceText, Phrase(NoFaceDetected), 0);
  }

  /** The gaze description counts as looking away. */
  lemma LookingAwayTextClassified()
    ensures Classify("violation", LookingAwayText) == Some(LookingAway)
  {
    PhraseWithin("Candidate ", LookingAway, " for >5 seconds");
  }

  /** The face-count description counts as multiple faces, whatever the count. */
  lemma MultipleFacesTextClassified(n: nat)
    ensures Classify("violation", MultipleFacesText(n)) == Some(MultipleFaces)
  {
    var head := "Multiple faces detected (";
    var text := MultipleFacesText(n);
    assert OccursAt(head, Phrase(MultipleFaces), 0);
    ContainsExtend(head, NatToString(n) + ")", Phrase(MultipleFaces));
    assert text == head + (NatToString(n) + ")");
    Lacks(text, LookingAway, 'w');
    Lacks(text, NoFaceDetected, 'N');
  }

  /** The object description counts as suspicious objects for any list of client
      classes. */
  lemma ObjectsTextClassified(names: seq<string>)
    requires forall i | 0 <= i < |names| :: names[i] in ClientItems
    ensures Classify("violation", ObjectsText(names)) == Some(SuspiciousObjects)
  {
    ClientItemsLack();
    ItemsLack(names, ClientItems, 'w');
    ItemsLack(names, ClientItems, 'N');
    ItemsLack(names, ClientItems, 'M');
    ObjectsPrefixClassified(Join(names, ", "));
  }

  /** The object description counts as suspicious objects whenever the listed names
      hold no 'w', 'N' or 'M', the characters the earlier phrases need. */
  lemma ObjectsPrefixClassified(tail: string)
    requires 'w' !in tail && 'N' !in tail && 'M' !in tail
    ensures Classify("violation", "Suspicious objects detected: " + tail) == Some(SuspiciousObjects)
  {
    var head := "Suspicious objects detected: ";
    var text := head + tail;
    assert Contains(text, Phrase(SuspiciousObjects)) by {
      assert OccursAt(head, Phrase(SuspiciousObjects), 0);
      ContainsExtend(head, tail, Phrase(SuspiciousObjects));
    }
    assert 'w' !in head && 'N' !in head && 'M' !in head;
    LacksBoth(head, tail, 'w');
    LacksBoth(head, tail, 'N');
    LacksBoth(head, tail, 'M');
    OnlyLastPhrase(text);
  }

  /** A character neither part holds is not in their concatenation. */
  lemma LacksBoth(a: string, b: string, c: char)
    requires c !in a && c !in b
    ensures c !in a + b
  {
  }

  /** A text holding the last phrase and none of the characters 'w', 'N' and 'M' is
      classified by the last rule. */
  lemma OnlyLastPhrase(text: string)
    requires 'w' !in text && 'N' !in text && 'M' !in text
    requires Contains(text, Phrase(SuspiciousObjects))
    ensures Classify("violation", text) == Some(SuspiciousObjects)
  {
    Lacks(text, LookingAway, 'w');
    Lacks(text, NoFaceDetected, 'N');
    Lacks(text, MultipleFaces, 'M');
  }

  /** A join of classes drawn from `items` lacks every character no item holds. */
  lemma ItemsLack(names: seq<string>, items: seq<string>, c: char)
    requires forall i | 0 <= i < |names| :: names[i] in items
    requires forall j | 0 <= j < |items| :: c !in items[j]
    requires c != ',' && c != ' '
    ensures c !in Join(names, ", ")
  {
    forall i | 0 <= i < |names| ensures c !in names[i] {
      var j :| 0 <= j < |items| && items[j] == names[i];
    }
    JoinLacks(names, ", ", c);
  }

  /** No client class holds a 'w', an 'N' or an 'M'. */
  lemma ClientItemsLack()
    ensures forall j | 0 <= j < |ClientItems| :: 'w' !in ClientItems[j]
    ensures forall j | 0 <= j < |ClientItems| :: 'N' !in ClientItems[j]
    ensures forall j | 0 <= j < |ClientItems| :: 'M' !in ClientItems[j]
  {
  }
}

=== FILE: controller.dfy ===
/** The request handlers of backend/controllers/sessionController.js, each reduced
    to one atomic transition on an in-memory session. The store lookup
    (`Session.findById`) is the parameter `found`, the clock (`new Date()`) the
    parameter `now` in milliseconds, and the HTTP response the `Result`. */
module SessionController {
  import opened Wrappers
  import opened Strings
  import opened SessionModel
  import opened Classifier

  /*** Errors ***/

  /** The three failure responses the handlers send. */
  datatype Error = BadRequest(message: string) | NotFound(message: string) | Internal(message: string)

  function HttpStatus(e: Error): int
  {
    match e
    case BadRequest(_) => 400
    case NotFound(_) => 404
    case Internal(_) => 500
  }

  const SessionNotFound := NotFound("Session not found")
  const InvalidSessionId := BadRequest("Invalid session ID format")
  const EventsRequired := BadRequest("Events array is required and must not be empty")

  /*** Session identifiers ***/

  predicate IsHexDigit(c: char)
  {
    '0' <= c <= '9' || 'a' <= c <= 'f' || 'A' <= c <= 'F'
  }

  /** The `^[0-9a-fA-F]{24}$` check on a path-level session id. */
  predicate ValidSessionId(id: string)
  {
    |id| == 24 && forall i | 0 <= i < |id| :: IsHexDigit(id[i])
  }

  /** The hexadecimal digit for a value below 16, with upper- or lower-case letters. */
  function HexDigit(d: nat, upper: bool): (c: char)
    requires d < 16
    ensures IsHexDigit(c)
  {
    if d < 10 then ('0' as int + d) as char
    else if upper then ('A' as int + d - 10) as char
    else ('a' as int + d - 10) as char
  }

  /** Two hexadecimal digits per byte: how a store identifier is written out. */
  function HexText(bytes: seq<nat>, upper: bool): (t: string)
    requires forall i | 0 <= i < |bytes| :: bytes[i] < 256
    ensures |t| == 2 * |bytes|
    ensures forall i | 0 <= i < |t| :: IsHexDigit(t[i])
  {
    if |bytes| == 0 then ""
    else [HexDigit(bytes[0] / 16, upper), HexDigit(bytes[0] % 16, upper)] + HexText(bytes[1..], upper)
  }

  /** The hexadecimal text of a byte string, in either letter case, passes the id
      check exactly when it has the 12 bytes of a store identifier. */
  lemma HexTextValid(bytes: seq<nat>, upper: bool)
    requires forall i | 0 <= i < |bytes| :: bytes[i] < 256
    ensures ValidSessionId(HexText(bytes, upper)) <==> |bytes| == 12
  {
  }

  /** The id check ignores letter case: an id passes exactly when its lower-cased
      form does, so upper-case digits `A-F` are accepted like `a-f`. */
  lemma ValidSessionIdIgnoresCase(id: string)
    ensures ValidSessionId(ToLower(id)) <==> ValidSessionId(id)
  {
    var low := ToLower(id);
    assert forall i | 0 <= i < |id| :: IsHexDigit(low[i]) <==> IsHexDigit(id[i]);
  }

  /** Worked values of the id check: 24 hexadecimal digits in any case pass; one
      digit short, or a letter past `f`, fails. */
  lemma ValidSessionIdExamples()
    ensures ValidSessionId("64a1f0c2b3d4e5f607182930")
    ensures ValidSessionId("64A1F0C2B3D4E5F607182930")
    ensures ValidSessionId("64a1F0c2B3d4E5f607182930")
    ensures !ValidSessionId("64a1f0c2b3d4e5f60718293")
    ensures !ValidSessionId("64a1f0c2b3d4e5f60718293g")
  {
    assert !IsHexDigit("64a1f0c2b3d4e5f60718293g"[23]);
  }

  /*** Creating a session ***/

  /** `createSession`: the schema requires the three candidate fields (an absent or
      empty string fails; whitespace passes); the rest comes from the defaults. */
  function CreateSession(id: string, name: string, email: string, title: string, now: int): (r: Result<Session, Error>)
    ensures r.Ok? <==> |name| > 0 && |email| > 0 && |title| > 0
    ensures r.Err? ==> HttpStatus(r.error) == 400
    ensures r.Ok? ==> r.value == Fresh(id, name, email, title, now)
  {
    if |name| == 0 || |email| == 0 || |title| == 0 then Err(BadRequest("Session validation failed"))
    else Ok(Fresh(id, name, email, title, now))
  }

  /*** Appending events ***/

  /** An event as it arrives in a request body. An absent field is the empty string;
      `severity` is still raw text. */
  datatype EventInput = EventInput(id: string, timestamp: int, kind: string, description: string, severity: string)

  /** The schema validation an event meets when the session is saved: the required
      strings are non-empty and the severity is one of the enum's names. */
  function ToEvent(e: EventInput): (r: Option<Event>)
    ensures r.Some? <==> e.id != "" && e.kind != "" && e.description != "" && ParseSeverity(e.severity).Some?
    ensures r.Some? ==> r.value.id == e.id && r.value.timestamp == e.timestamp && r.value.kind == e.kind
    ensures r.Some? ==> r.value.description == e.description && SeverityName(r.value.severity) == e.severity
  {
    if e.id == "" || e.kind == "" || e.description == "" then None
    else match ParseSeverity(e.severity)
      case None => None
      case Some(sev) => Some(Event(e.id, e.timestamp, e.kind, e.description, sev))
  }

  /** Pushes one event and counts it, without touching the stored score. */
  function Record(s: Session, e: Event): (r: Session)
    ensures r.events == s.events + [e]
    ensures r.violations == Tally(s.violations, Classify(e.kind, e.description))
    ensures r.(events := s.events, violations := s.violations) == s
  {
    s.(events := s.events + [e], violations := Tally(s.violations, Classify(e.kind, e.description)))
  }

  /** One single-event append on a found session: record, then rescore. */
  function Append(s: Session, e: Event): (r: Session)
    ensures r.events == s.events + [e]
    ensures r.violations == Tally(s.violations, Classify(e.kind, e.description))
    ensures ScoreConsistent(r)
    ensures r.(events := s.events, violations := s.violations, integrityScore := s.integrityScore) == s
  {
    Rescore(Record(s, e))
  }

  /** `addEvent`: a missing session is 404; otherwise the event is always appended,
      whatever its type, description or id (there is no deduplication here), at
      most one counter goes up by one, and the score is recomputed. An event the
      schema rejects makes the save fail with 400. */
  function AddEvent(found: Option<Session>, input: EventInput): (r: Result<Session, Error>)
    ensures found.None? ==> r == Err(SessionNotFound)
    ensures r.Ok? <==> found.Some? && ToEvent(input).Some?
    ensures r.Err? ==> HttpStatus(r.error) == 400 || HttpStatus(r.error) == 404
    ensures found.Some? && ToEvent(input).None? ==> r.Err? && HttpStatus(r.error) == 400
    ensures r.Ok? ==> r.value.events == found.value.events + [ToEvent(input).value]
    ensures r.Ok? ==> Total(found.value.violations) <= Total(r.value.violations) <= Total(found.value.violations) + 1
    ensures r.Ok? ==> forall v :: Count(found.value.violations, v) <= Count(r.value.violations, v)
    ensures r.Ok? ==> ScoreConsistent(r.value)
    ensures r.Ok? ==> r.value.status == found.value.status && r.value.endTime == found.value.endTime
    ensures r.Ok? ==> r.value == Append(found.value, ToEvent(input).value)
  {
    if found.None? then Err(SessionNotFound)
    else match ToEvent(input)
      case None => Err(BadRequest("Session validation failed"))
      case Some(e) => Ok(Append(found.value, e))
  }

  /** Which counter a successful append bumps is exactly what the classifier says. */
  lemma AddEventCounts(s: Session, input: EventInput)
    requires ToEvent(input).Some?
    ensures AddEvent(Some(s), input).Ok?
    ensures var cls := Classify(input.kind, input.description);
            AddEvent(Some(s), input).value.violations == Tally(s.violations, cls)
  {
  }

  /** How many stored events carry the id. */
  function CountId(events: seq<Event>, id: string): (n: nat)
    ensures n <= |events|
    ensures n == 0 <==> forall e | e in events :: e.id != id
  {
    if |events| == 0 then 0
    else (if events[0].id == id then 1 else 0) + CountId(events[1..], id)
  }

  lemma {:induction false} CountIdAppend(a: seq<Event>, b: seq<Event>, id: string)
    ensures CountId(a + b, id) == CountId(a, id) + CountId(b, id)
  {
    if |a| == 0 {
      assert a + b == b;
    } else {
      assert (a + b)[1..] == a[1..] + b;
      CountIdAppend(a[1..], b, id);
    }
  }

  /** The single-event path stores a second event with an id already present. */
  lemma AddEventKeepsDuplicates(s: Session, input: EventInput)
    requires ToEvent(input).Some?
    ensures CountId(AddEvent(Some(s), input).value.events, input.id) == CountId(s.events, input.id) + 1
  {
    CountIdAppend(s.events, [ToEvent(input).value], input.id);
  }

  /*** Bulk append ***/

  /** The ids stored before the call: the snapshot duplicates are checked against. */
  function EventIds(events: seq<Event>): set<string>
  {
    set e | e in events :: e.id
  }

  /** The anti-spam rule: the client's model-loaded notices are never stored. */
  predicate IsSpam(e: EventInput)
  {
    e.kind == "system" && Contains(e.description, "AI models loaded")
  }

  /** A bulk event survives filtering when its id is truthy, is not among the
      pre-call ids, and it is not spam. */
  predicate Survives(existing: set<string>, e: EventInput)
  {
    e.id != "" && e.id !in existing && !IsSpam(e)
  }

  /** The surviving events in input order. Ids repeated inside one batch are not
      removed: the check is against the pre-call snapshot only. */
  function Survivors(existing: set<string>, events: seq<EventInput>): (r: seq<EventInput>)
    ensures |r| <= |events|
    ensures forall e :: e in r <==> e in events && Survives(existing, e)
  {
    if |events| == 0 then []
    else if Survives(existing, events[0]) then [events[0]] + Survivors(existing, events[1..])
    else Survivors(existing, events[1..])
  }

  /** Filtering commutes with concatenation, so survivors keep their input order. */
  lemma {:induction false} SurvivorsAppend(existing: set<string>, a: seq<EventInput>, b: seq<EventInput>)
    ensures Survivors(existing, a + b) == Survivors(existing, a) + Survivors(existing, b)
  {
    if |a| == 0 {
      assert a + b == b;
    } else {
      assert (a + b)[1..] == a[1..] + b;
      SurvivorsAppend(existing, a[1..], b);
    }
  }

  /** Schema validation of every survivor; one rejected event fails the whole save. */
  function ToEvents(inputs: seq<EventInput>): (r: Option<seq<Event>>)
    ensures r.Some? <==> forall i | 0 <= i < |inputs| :: ToEvent(inputs[i]).Some?
    ensures r.Some? ==> |r.value| == |inputs|
    ensures r.Some? ==> forall i | 0 <= i < |inputs| :: r.value[i] == ToEvent(inputs[i]).value
  {
    if |inputs| == 0 then Some([])
    else match (ToEvent(inputs[0]), ToEvents(inputs[1..]))
      case (Some(e), Some(rest)) => Some([e] + rest)
      case (None, _) => None
      case (_, None) =>
        assert forall i | 1 <= i < |inputs| :: inputs[1..][i - 1] == inputs[i];
        None
  }

  /** Records the events in order; the score is left for the caller. */
  function RecordAll(s: Session, es: seq<Event>): (r: Session)
    ensures r.events == s.events + es
    ensures r.(events := s.events, violations := s.violations) == s
    decreases |es|
  {
    if |es| == 0 then s else RecordAll(Record(s, es[0]), es[1..])
  }

  /** The number of events in `es` the classifier assigns to category `v`. */
  function Classified(es: seq<Event>, v: Violation): nat
  {
    if |es| == 0 then 0
    else (if Classify(es[0].kind, es[0].description) == Some(v) then 1 else 0) + Classified(es[1..], v)
  }

  /** Recording a batch adds to each counter exactly the batch's events of that category. */
  lemma {:induction false} RecordAllCounts(s: Session, es: seq<Event>, v: Violation)
    ensures Count(RecordAll(s, es).violations, v) == Count(s.violations, v) + Classified(es, v)
    decreases |es|
  {
    if |es| > 0 {
      RecordAllCounts(Record(s, es[0]), es[1..], v);
    }
  }

  /** A successful bulk call: the session after it and how many events it applied. */
  datatype BulkOutcome = BulkOutcome(session: Session, applied: nat)

  /** `bulkAddEvents`. The checks run in order: a missing or empty events list (400),
      then the id format (400), then the lookup (404). If no event survives the
      filter the call succeeds with the session unchanged; otherwise the survivors
      are recorded in input order and the score is recomputed once. An event the
      schema rejects makes the save fail, which this handler reports as 500.
      `events` is `None` when the body's `events` is absent or not an array. */
  function BulkAddEvents(sessionId: string, found: Option<Session>, events: Option<seq<EventInput>>): (r: Result<BulkOutcome, Error>)
    ensures (events.None? || events.value == []) ==> r == Err(EventsRequired)
    ensures events.Some? && events.value != [] && !ValidSessionId(sessionId) ==> r == Err(InvalidSessionId)
    ensures events.Some? && events.value != [] && ValidSessionId(sessionId) && found.None? ==> r == Err(SessionNotFound)
    ensures r.Ok? ==> events.Some? && found.Some? && ValidSessionId(sessionId)
    ensures r.Ok? ==> r.value.applied == |Survivors(EventIds(found.value.events), events.value)|
    ensures r.Ok? && r.value.applied == 0 ==> r.value.session == found.value
    ensures r.Ok? && r.value.applied > 0 ==> ScoreConsistent(r.value.session)
    ensures r.Ok? ==> found.value.events <= r.value.session.events
    ensures r.Ok? ==> |r.value.session.events| == |found.value.events| + r.value.applied
    ensures r.Err? && r.error.Internal? ==> exists e :: e in events.value && Survives(EventIds(found.value.events), e) && ToEvent(e).None?
    ensures r.Ok? <==>
              && events.Some? && events.value != [] && ValidSessionId(sessionId) && found.Some?
              && ToEvents(Survivors(EventIds(found.value.events), events.value)).Some?
    ensures (&& events.Some? && events.value != [] && ValidSessionId(sessionId) && found.Some?
             && ToEvents(Survivors(EventIds(found.value.events), events.value)).None?)
            ==> r.Err? && r.error.Internal?
  {
    if events.None? || |events.value| == 0 then Err(EventsRequired)
    else if !ValidSessionId(sessionId) then Err(InvalidSessionId)
    else if found.None? then Err(SessionNotFound)
    else
      var s := found.value;
      var kept := Survivors(EventIds(s.events), events.value);
      if |kept| == 0 then Ok(BulkOutcome(s, 0))
      else match ToEvents(kept)
        case None => Err(Internal("Failed to add events: session validation failed"))
        case Some(es) => Ok(BulkOutcome(Rescore(RecordAll(s, es)), |kept|))
  }

  /** Applies single-event appends one after another. */
  function AppendAll(s: Session, es: seq<Event>): (r: Session)
    decreases |es|
  {
    if |es| == 0 then s else AppendAll(Append(s, es[0]), es[1..])
  }

  /** Rescoring once at the end of a batch gives the same session as rescoring
      after every event, because recording never reads the score. */
  lemma {:induction false} RescoreOnceIsRescoreEach(s: Session, es: seq<Event>)
    requires |es| > 0
    ensures Rescore(RecordAll(s, es)) == AppendAll(s, es)
    decreases |es|
  {
    if |es| == 1 {
      assert es[1..] == [];
    } else {
      var t := Record(s, es[0]);
      assert Record(Rescore(t), es[1]).(integrityScore := 0) == Record(t, es[1]).(integrityScore := 0);
      RecordAllIgnoresScore(t, es[1..]);
      RescoreOnceIsRescoreEach(Rescore(t), es[1..]);
    }
  }

  /** Recording does not depend on the stored score. */
  lemma {:induction false} RecordAllIgnoresScore(s: Session, es: seq<Event>)
    ensures Rescore(RecordAll(Rescore(s), es)) == Rescore(RecordAll(s, es))
    decreases |es|
  {
    if |es| > 0 {
      assert Record(Rescore(s), es[0]) == Rescore(Record(s, es[0])).(integrityScore := Rescore(s).integrityScore);
      RecordAllIgnoresScoreField(Record(Rescore(s), es[0]), Record(s, es[0]), es[1..]);
    }
  }

  /** Two sessions that differ only in their stored score stay so under recording. */
  lemma {:induction false} RecordAllIgnoresScoreField(a: Session, b: Session, es: seq<Event>)
    requires a.(integrityScore := 0) == b.(integrityScore := 0)
    ensures RecordAll(a, es).(integrityScore := 0) == RecordAll(b, es).(integrityScore := 0)
    decreases |es|
  {
    if |es| > 0 {
      RecordAllIgnoresScoreField(Record(a, es[0]), Record(b, es[0]), es[1..]);
    }
  }

  /** A successful bulk call leaves the session a sequence of single appends of
      the survivors, in input order, would leave. */
  lemma BulkIsSequentialAppends(sessionId: string, s: Session, events: seq<EventInput>)
    requires BulkAddEvents(sessionId, Some(s), Some(events)).Ok?
    ensures var kept := Survivors(EventIds(s.events), events);
            var out := BulkAddEvents(sessionId, Some(s), Some(events)).value;
            |kept| > 0 ==> ToEvents(kept).Some? && out.session == AppendAll(s, ToEvents(kept).value)
  {
    var kept := Survivors(EventIds(s.events), events);
    if |kept| > 0 {
      RescoreOnceIsRescoreEach(s, ToEvents(kept).value);
    }
  }

  /** Appending an event singly and then sending it again in a bulk call stores it
      once: the bulk call finds its id in the snapshot and applies nothing. */
  lemma SingleThenBulkStoresOnce(sessionId: string, s: Session, input: EventInput)
    requires ValidSessionId(sessionId) && ToEvent(input).Some?
    requires forall e | e in s.events :: e.id != input.id
    ensures var s1 := AddEvent(Some(s), input).value;
            && BulkAddEvents(sessionId, Some(s1), Some([input])) == Ok(BulkOutcome(s1, 0))
            && CountId(s1.events, input.id) == 1
  {
    var s1 := AddEvent(Some(s), input).value;
    assert ToEvent(input).value in s1.events;
    assert input.id in EventIds(s1.events);
    assert Survivors(EventIds(s1.events), [input]) == [];
    AddEventKeepsDuplicates(s, input);
  }

  /** A batch holding only the client's "AI models loaded" notice applies nothing. */
  lemma ModelLoadedNoticeIsDropped(sessionId: string, s: Session, id: string, at: int, severity: string)
    requires ValidSessionId(sessionId)
    ensures var notice := EventInput(id, at, "system", "AI models loaded successfully", severity);
            BulkAddEvents(sessionId, Some(s), Some([notice])) == Ok(BulkOutcome(s, 0))
  {
    var notice := EventInput(id, at, "system", "AI models loaded successfully", severity);
    assert OccursAt(notice.description, "AI models loaded", 0);
    assert Survivors(EventIds(s.events), [notice]) == [];
  }

  /** Two events with the same new id in one batch are both applied. */
  lemma BatchDuplicatesBothApplied(sessionId: string, s: Session, input: EventInput)
    requires ValidSessionId(sessionId) && ToEvent(input).Some?
    requires input.id !in EventIds(s.events) && !IsSpam(input)
    ensures var r := BulkAddEvents(sessionId, Some(s), Some([input, input]));
            r.Ok? && r.value.applied == 2
            && CountId(r.value.session.events, input.id) == CountId(s.events, input.id) + 2
  {
    var ex := EventIds(s.events);
    assert Survivors(ex, [input, input]) == [input, input];
    var e := ToEvent(input).value;
    var batch := ToEvents([input, input]);
    assert batch.Some? && |batch.value| == 2;
    assert batch.value[0] == e && batch.value[1] == e;
    assert batch.value == [e, e];
    CountIdAppend(s.events, [e, e], input.id);
  }

  /*** Ending a session ***/

  /** `endSession`: a malformed id is 400 and a missing session 404. A completed
      session comes back unchanged. Any other session (including a terminated one)
      gets its end time, its duration in whole seconds rounded down, the completed
      status and the recording flag (absent means false); its score is recomputed
      from the unchanged counters. */
  function EndSession(sessionId: string, found: Option<Session>, videoRecorded: Option<bool>, now: int): (r: Result<Session, Error>)
    ensures !ValidSessionId(sessionId) ==> r == Err(InvalidSessionId)
    ensures ValidSessionId(sessionId) && found.None? ==> r == Err(SessionNotFound)
    ensures r.Ok? <==> ValidSessionId(sessionId) && found.Some?
    ensures r.Ok? && found.value.status == Completed ==> r.value == found.value
    ensures r.Ok? ==> r.value.status == Completed
    ensures r.Ok? ==> r.value.events == found.value.events && r.value.violations == found.value.violations
    ensures r.Ok? && found.value.status != Completed ==>
              && r.value.endTime == Some(now)
              && r.value.duration.Some?
              && r.value.duration.value * 1000 <= now - found.value.startTime < (r.value.duration.value + 1) * 1000
              && r.value.videoRecorded == (videoRecorded == Some(true))
              && ScoreConsistent(r.value)
    ensures r.Ok? && ScoreConsistent(found.value) ==> r.value.integrityScore == found.value.integrityScore
    ensures r.Ok? ==>
              r.value.(endTime := found.value.endTime, duration := found.value.duration, status := found.value.status,
                       videoRecorded := found.value.videoRecorded, integrityScore := found.value.integrityScore)
              == found.value
  {
    if !ValidSessionId(sessionId) then Err(InvalidSessionId)
    else if found.None? then Err(SessionNotFound)
    else
      var s := found.value;
      if s.status == Completed then Ok(s)
      else
        var duration := (now - s.startTime) / 1000;
        Ok(Rescore(s.(endTime := Some(now), duration := Some(duration), status := Completed,
                      videoRecorded := videoRecorded == Some(true))))
  }

  /** Ending is idempotent: ending the ended session again, at any later time and
      with any flag, returns it unchanged. */
  lemma EndSessionIdempotent(sessionId: string, s: Session, flag1: Option<bool>, now1: int, flag2: Option<bool>, now2: int)
    requires EndSession(sessionId, Some(s), flag1, now1).Ok?
    ensures var ended := EndSession(sessionId, Some(s), flag1, now1).value;
            EndSession(sessionId, Some(ended), flag2, now2) == Ok(ended)
  {
  }

  /*** Reading ***/

  /** `getSessionReport`. */
  function GetReport(found: Option<Session>): (r: Result<Report, Error>)
    ensures found.None? <==> r == Err(SessionNotFound)
    ensures found.Some? ==> r == Ok(GenerateReport(found.value))
  {
    if found.None? then Err(SessionNotFound) else Ok(GenerateReport(found.value))
  }

  /** The report of a session ended at least a second after it started shows a
      duration text that reads back as the whole seconds it lasted. */
  lemma EndedReportReadsBack(sessionId: string, s: Session, flag: Option<bool>, now: int)
    requires ValidSessionId(sessionId) && s.status != Completed && now - s.startTime >= 1000
    ensures var ended := EndSession(sessionId, Some(s), flag, now).value;
            ParseDuration(GetReport(Some(ended)).value.durationFormatted) == Some((now - s.startTime) / 1000)
  {
    var d := (now - s.startTime) / 1000;
    var ended := EndSession(sessionId, Some(s), flag, now).value;
    assert ended.duration == Some(d);
    FormatDurationRoundTrip(d);
  }

  /** One page of the listing. */
  datatype SessionPage = SessionPage(sessions: seq<Session>, totalPages: int, currentPage: int, total: nat)

  /** The sessions the query `status ? { status } : {}` selects, in store order: all
      of them for an absent (empty) status text, otherwise those whose stored status
      is that text. */
  function WithStatus(all: seq<Session>, status: string): (r: seq<Session>)
    ensures |r| <= |all|
    ensures forall x :: x in r <==> x in all && Selects(status, x)
    ensures status == "" ==> r == all
  {
    if |all| == 0 then []
    else if Selects(status, all[0]) then [all[0]] + WithStatus(all[1..], status)
    else WithStatus(all[1..], status)
  }

  /** Whether the query for a status text selects a session: an empty text is
      falsy and selects every session. */
  predicate Selects(status: string, x: Session)
  {
    status == "" || StatusName(x.status) == status
  }

  /** The status filter keeps store order: filtering a concatenation is
      concatenating the filtered parts. */
  lemma {:induction false} WithStatusAppend(a: seq<Session>, b: seq<Session>, status: string)
    ensures WithStatus(a + b, status) == WithStatus(a, status) + WithStatus(b, status)
  {
    if |a| == 0 {
      assert a + b == b;
    } else {
      assert (a + b)[0] == a[0];
      assert (a + b)[1..] == a[1..] + b;
      WithStatusAppend(a[1..], b, status);
    }
  }

  /** A status text outside the enum selects no session at all. */
  lemma UnknownStatusMatchesNothing(all: seq<Session>, status: string)
    requires status != "" && status != "active" && status != "completed" && status != "terminated"
    ensures WithStatus(all, status) == []
  {
  }

  /** `Math.ceil(a / b)` for a positive divisor. */
  function CeilDiv(a: nat, b: nat): nat
    requires b > 0
  {
    (a + b - 1) / b
  }

  /** `CeilDiv(a, b)` is the least number of `b`-sized pages that hold `a` items. */
  lemma CeilDivBounds(a: nat, b: nat)
    requires b > 0
    ensures var q := CeilDiv(a, b);
            a <= q * b && (q == 0 || (q - 1) * b < a)
  {
    var q := CeilDiv(a, b);
    assert a + b - 1 == q * b + (a + b - 1) % b;
  }

  /** At most `limit` items of `items` starting at index `skip`. */
  function Window<T>(items: seq<T>, skip: nat, limit: nat): (w: seq<T>)
    ensures |w| <= limit
    ensures forall i | 0 <= i < |w| :: skip + i < |items| && w[i] == items[skip + i]
    ensures skip + limit <= |items| ==> |w| == limit
    ensures skip <= |items| < skip + limit ==> |w| == |items| - skip
  {
    var from := if skip < |items| then skip else |items|;
    var to := if from + limit < |items| then from + limit else |items|;
    items[from..to]
  }

  /** The query's page and limit when absent. */
  const DefaultPage := 1
  const DefaultLimit := 10

  function OrDefault(x: Option<int>, d: int): int
  {
    if x.Some? then x.value else d
  }

  /** Page `p` of `matching`, `l` sessions to a page: skip `(p - 1) * l` sessions
      and take at most `l`. A page before the first asks the store for a negative
      skip, which it refuses. */
  function Paginate(matching: seq<Session>, p: int, l: int): (r: Result<SessionPage, Error>)
    requires l > 0
    ensures r.Ok? <==> p >= 1
    ensures r.Ok? ==> r.value.total == |matching| && r.value.currentPage == p
    ensures r.Ok? ==> |r.value.sessions| <= l
    ensures r.Ok? ==> r.value.totalPages == CeilDiv(r.value.total, l)
  {
    var skip := (p - 1) * l;
    if p < 1 then
      assert skip < 0;
      Err(BadRequest("skip must be non-negative"))
    else
      assert skip >= 0;
      Ok(SessionPage(Window(matching, skip, l), CeilDiv(|matching|, l), p, |matching|))
  }

  /** `getAllSessions` over the sessions the store returns, newest first: the
      requested page of the sessions the status text selects, where an absent page
      is 1 and an absent limit 10. */
  function ListSessions(all: seq<Session>, page: Option<int>, limit: Option<int>, status: string): (r: Result<SessionPage, Error>)
    requires limit.None? || limit.value > 0
    ensures r.Ok? <==> page.None? || page.value >= 1
    ensures r.Ok? ==> r.value.total == |WithStatus(all, status)|
    ensures r.Ok? ==> r.value.currentPage == OrDefault(page, DefaultPage)
    ensures r.Ok? ==> |r.value.sessions| <= OrDefault(limit, DefaultLimit)
    ensures r.Ok? ==> r.value.totalPages == CeilDiv(r.value.total, OrDefault(limit, DefaultLimit))
  {
    Paginate(WithStatus(all, status), OrDefault(page, DefaultPage), OrDefault(limit, DefaultLimit))
  }

  /** A query with neither page nor limit lists the first ten matching sessions,
      newest first, as page 1. */
  lemma DefaultListing(all: seq<Session>, status: string)
    ensures var r := ListSessions(all, None, None, status);
            var matching := WithStatus(all, status);
            && r.Ok? && r.value.currentPage == 1
            && r.value.sessions == matching[..if |matching| < 10 then |matching| else 10]
  {
  }

  /** Every matching session is listed: the one at index `q * limit + m`, with
      `m < limit`, is at position `m` on page `q + 1`, and that page is not past
      the last one. */
  lemma ListingCoversEachSession(all: seq<Session>, limit: int, status: string, q: nat, m: nat)
    requires limit > 0 && m < limit && q * limit + m < |WithStatus(all, status)|
    ensures var r := ListSessions(all, Some(q + 1), Some(limit), status);
            r.Ok? && m < |r.value.sessions| && r.value.sessions[m] == WithStatus(all, status)[q * limit + m]
            && q + 1 <= r.value.totalPages
  {
    var matching := WithStatus(all, status);
    PageCovers(matching, limit, q, m);
    assert ListSessions(all, Some(q + 1), Some(limit), status) == Paginate(matching, q + 1, limit);
  }

  lemma PageCovers(matching: seq<Session>, limit: int, q: nat, m: nat)
    requires limit > 0 && m < limit && q * limit + m < |matching|
    ensures var r := Paginate(matching, q + 1, limit);
            r.Ok? && m < |r.value.sessions| && r.value.sessions[m] == matching[q * limit + m]
            && q + 1 <= r.value.totalPages
  {
    var skip := q * limit;
    var pages := CeilDiv(|matching|, limit);
    PageOf(matching, q, limit);
    WindowHolds(matching, skip, limit, m);
    CeilDivBounds(|matching|, limit);
    PageBound(q, pages, limit, skip + m, |matching|);
  }

  /** Page `q + 1` with an explicit limit, spelled out. */
  lemma PageOf(matching: seq<Session>, q: nat, limit: int)
    requires limit > 0
    ensures Paginate(matching, q + 1, limit)
            == Ok(SessionPage(Window(matching, q * limit, limit), CeilDiv(|matching|, limit), q + 1, |matching|))
  {
    assert (q + 1 - 1) * limit == q * limit;
  }

  /** Page `q + 1` lists nothing else: its `j`-th session is the matching session
      at index `q * limit + j`. */
  lemma ListingPageContents(all: seq<Session>, q: nat, limit: int, status: string, j: nat)
    requires limit > 0
    requires j < |ListSessions(all, Some(q + 1), Some(limit), status).value.sessions|
    ensures q * limit + j < |WithStatus(all, status)|
    ensures ListSessions(all, Some(q + 1), Some(limit), status).value.sessions[j] == WithStatus(all, status)[q * limit + j]
  {
    var matching := WithStatus(all, status);
    PageOf(matching, q, limit);
    assert ListSessions(all, Some(q + 1), Some(limit), status) == Paginate(matching, q + 1, limit);
  }

  lemma WindowHolds<T>(items: seq<T>, skip: nat, limit: nat, m: nat)
    requires m < limit && skip + m < |items|
    ensures m < |Window(items, skip, limit)| && Window(items, skip, limit)[m] == items[skip + m]
  {
  }

  /** An index below the total falls on a page no later than the last one. */
  lemma PageBound(q: nat, pages: int, limit: int, i: nat, total: nat)
    requires limit > 0 && q * limit <= i < total
    requires total <= pages * limit
    ensures q + 1 <= pages
  {
  }
}

=== FILE: detection.dfy ===
/** The object-detection rules of src/utils/detectionUtils.js: which detected
    classes count as suspicious, and the three-level risk decision table applied
    to each of them. Confidence is a `real`; the rules only compare it with fixed
    thresholds. */
module Detection {
  import opened Wrappers
  import opened Strings

  /** The class names (and fragments of names) that make a detection suspicious. */
  const SuspiciousItems: seq<string> := [
    "cell phone", "phone", "mobile", "smartphone",
    "book", "notebook", "paper", "document",
    "laptop", "computer", "tablet", "ipad",
    "remote", "keyboard", "mouse", "headphones",
    "calculator", "watch", "smartwatch"
  ]

  /** Keywords of the high-risk classes. */
  const HighRiskItems: seq<string> := ["phone", "mobile", "smartphone", "tablet", "laptop"]

  /** Keywords of the medium-risk classes. */
  const MediumRiskItems: seq<string> := ["book", "notebook", "paper", "calculator"]

  datatype Level = Low | Medium | High

  /** The string the client stores for a level. */
  function LevelName(l: Level): string
  {
    match l
    case Low => "low"
    case Medium => "medium"
    case High => "high"
  }

  /** The order of the levels, lowest risk first. */
  function Rank(l: Level): nat
  {
    match l
    case Low => 0
    case Medium => 1
    case High => 2
  }

  /** `items.some(item => name.includes(item))`. */
  function IncludesAny(name: string, items: seq<string>): (r: bool)
    ensures r <==> exists i | 0 <= i < |items| :: Contains(name, items[i])
  {
    if |items| == 0 then false
    else
      var rest := IncludesAny(name, items[1..]);
      assert forall i | 1 <= i < |items| :: items[i] == items[1..][i - 1];
      Contains(name, items[0]) || rest
  }

  /** `items.some(item => name.includes(item) || item.includes(name))`. */
  function OverlapsAny(name: string, items: seq<string>): (r: bool)
    ensures r <==> exists i | 0 <= i < |items| :: Contains(name, items[i]) || Contains(items[i], name)
  {
    if |items| == 0 then false
    else
      var rest := OverlapsAny(name, items[1..]);
      assert forall i | 1 <= i < |items| :: items[i] == items[1..][i - 1];
      Contains(name, items[0]) || Contains(items[0], name) || rest
  }

  /** The lower-cased class name holds a high-risk keyword. */
  predicate IsHighRisk(className: string)
  {
    IncludesAny(ToLower(className), HighRiskItems)
  }

  /** The lower-cased class name holds a medium-risk keyword. */
  predicate IsMediumRisk(className: string)
  {
    IncludesAny(ToLower(className), MediumRiskItems)
  }

  /** `getSuspicionLevel`: high-risk classes are "high" above 0.7 and "medium" above
      0.5; otherwise medium-risk classes are "medium" above 0.6; everything else is
      "low". Every bound is strict. */
  function GetSuspicionLevel(className: string, confidence: real): (r: Level)
    ensures r == High <==> IsHighRisk(className) && confidence > 0.7
    ensures r == Medium <==>
      || (IsHighRisk(className) && 0.5 < confidence <= 0.7)
      || (!IsHighRisk(className) && IsMediumRisk(className) && confidence > 0.6)
    ensures r == Low <==>
      && (!IsHighRisk(className) || confidence <= 0.5)
      && (!IsMediumRisk(className) || confidence <= 0.6)
  {
    var high := IsHighRisk(className);
    var medium := IsMediumRisk(className);
    if high && confidence > 0.7 then High
    else if high && confidence > 0.5 then Medium
    else if medium && confidence > 0.6 then Medium
    else Low
  }

  /** A more confident detection of the same class is never rated lower. */
  lemma SuspicionMonotone(className: string, c1: real, c2: real)
    requires c1 <= c2
    ensures Rank(GetSuspicionLevel(className, c1)) <= Rank(GetSuspicionLevel(className, c2))
  {
  }

  /** The rating depends on the class only through its lower-cased name. */
  lemma SuspicionIgnoresCase(a: string, b: string, confidence: real)
    requires ToLower(a) == ToLower(b)
    ensures GetSuspicionLevel(a, confidence) == GetSuspicionLevel(b, confidence)
  {
  }

  /** "Headphones" is high-risk, because its lower-cased name contains "phone"; and
      the thresholds are strict, so a confidence of exactly 0.7 rates "medium". */
  lemma HeadphonesAreHighRisk()
    ensures GetSuspicionLevel("Headphones", 0.9) == High
    ensures GetSuspicionLevel("Headphones", 0.7) == Medium
    ensures GetSuspicionLevel("Headphones", 0.5) == Low
  {
    var lower := ToLower("Headphones");
    assert lower == "headphones";
    assert OccursAt(lower, "phone", 4);
    assert Contains(lower, HighRiskItems[0]);
  }

  /** A detection from the object detector, with the level the filter attaches. */
  datatype Prediction = Prediction(className: string, score: real, bbox: seq<real>, suspicionLevel: Option<Level>)

  /** The class name, lower-cased, contains a suspicious item or is contained in one. */
  predicate IsSuspicious(className: string)
  {
    OverlapsAny(ToLower(className), SuspiciousItems)
  }

  /** A kept prediction: the original with its suspicion level attached. */
  function Tag(p: Prediction): (r: Prediction)
    ensures r.className == p.className && r.score == p.score && r.bbox == p.bbox
    ensures r.suspicionLevel == Some(GetSuspicionLevel(p.className, p.score))
  {
    p.(suspicionLevel := Some(GetSuspicionLevel(p.className, p.score)))
  }

  /** `filterSuspiciousObjects`: the suspicious predictions, in input order, each
      tagged with its suspicion level. */
  function FilterSuspiciousObjects(ps: seq<Prediction>): (r: seq<Prediction>)
    ensures |r| <= |ps|
    ensures forall q | q in r :: exists p | p in ps :: IsSuspicious(p.className) && q == Tag(p)
    ensures forall p | p in ps && IsSuspicious(p.className) :: Tag(p) in r
    ensures forall q | q in r :: IsSuspicious(q.className) && q.suspicionLevel == Some(GetSuspicionLevel(q.className, q.score))
  {
    if |ps| == 0 then []
    else
      var rest := FilterSuspiciousObjects(ps[1..]);
      assert forall p | p in ps[1..] :: p in ps;
      assert forall p | p in ps :: p == ps[0] || p in ps[1..];
      if IsSuspicious(ps[0].className) then [Tag(ps[0])] + rest else rest
  }

  /** Filtering commutes with concatenation, so the kept predictions keep their
      relative order. */
  lemma {:induction false} FilterAppend(a: seq<Prediction>, b: seq<Prediction>)
    ensures FilterSuspiciousObjects(a + b) == FilterSuspiciousObjects(a) + FilterSuspiciousObjects(b)
  {
    if |a| > 0 {
      assert (a + b)[0] == a[0];
      assert (a + b)[1..] == a[1..] + b;
      FilterAppend(a[1..], b);
    } else {
      assert a + b == b;
    }
  }

  /** Filtering the filter's output keeps every element and changes none of them. */
  lemma {:induction false} FilterIdempotent(ps: seq<Prediction>)
    ensures FilterSuspiciousObjects(FilterSuspiciousObjects(ps)) == FilterSuspiciousObjects(ps)
  {
    if |ps| > 0 {
      FilterIdempotent(ps[1..]);
      var rest := FilterSuspiciousObjects(ps[1..]);
      if IsSuspicious(ps[0].className) {
        var t := Tag(ps[0]);
        assert FilterSuspiciousObjects(ps) == [t] + rest;
        assert ([t] + rest)[0] == t && ([t] + rest)[1..] == rest;
        assert Tag(t) == t;
      }
    }
  }

  /** An empty class name is kept, since every item contains the empty string. */
  lemma EmptyClassIsKept(score: real, bbox: seq<real>)
    ensures FilterSuspiciousObjects([Prediction("", score, bbox, None)])
         == [Prediction("", score, bbox, Some(Low))]
  {
    var p := Prediction("", score, bbox, None);
    assert ToLower("") == "";
    assert IsSuspicious("") by {
      assert OccursAt(SuspiciousItems[0], "", 0);
    }
    assert GetSuspicionLevel("", score) == Low by {
      NothingInEmpty(HighRiskItems);
      NothingInEmpty(MediumRiskItems);
    }
    assert [p][1..] == [];
  }

  /** The empty name contains no non-empty item. */
  lemma NothingInEmpty(items: seq<string>)
    requires forall i | 0 <= i < |items| :: |items[i]| > 0
    ensures !IncludesAny("", items)
  {
  }
}

=== FILE: session.dfy ===
/** The proctoring session record (backend/models/Session.js): its schema enums and
    defaults, the integrity scorer and the report projection. */
module SessionModel {
  import opened Wrappers
  import opened Strings

  /*** Events ***/

  /** The schema's severity enum. */
  datatype Severity = Info | Warning | Error

  function SeverityName(s: Severity): string
  {
    match s
    case Info => "info"
    case Warning => "warning"
    case Error => "error"
  }

  /** The enum check the schema applies when an event is saved. */
  function ParseSeverity(name: string): (r: Option<Severity>)
    ensures r.Some? <==> name == "info" || name == "warning" || name == "error"
    ensures r.Some? ==> SeverityName(r.value) == name
  {
    if name == "info" then Some(Info)
    else if name == "warning" then Some(Warning)
    else if name == "error" then Some(Error)
    else None
  }

  /** Every severity survives the enum check under its own name. */
  lemma ParseSeverityName(s: Severity)
    ensures ParseSeverity(SeverityName(s)) == Some(s)
  {
  }

  /** A stored event. `kind` is the schema's free-form `type` field. */
  datatype Event = Event(id: string, timestamp: int, kind: string, description: string, severity: Severity)

  /*** Status ***/

  /** The schema's status enum. Nothing in the core produces `Terminated`. */
  datatype Status = Active | Completed | Terminated

  /** The text the store keeps for a status. */
  function StatusName(st: Status): (t: string)
    ensures t != ""
  {
    match st
    case Active => "active"
    case Completed => "completed"
    case Terminated => "terminated"
  }

  /*** Violation counters and the integrity score ***/

  /** The four violation categories, one per counter. */
  datatype Violation = LookingAway | NoFaceDetected | MultipleFaces | SuspiciousObjects

  /** The schema's `violations` sub-document; every counter defaults to 0. */
  datatype Counters = Counters(lookingAway: nat, noFaceDetected: nat, multipleFaces: nat, suspiciousObjects: nat)

  const NoViolations := Counters(0, 0, 0, 0)

  function Count(c: Counters, v: Violation): nat
  {
    match v
    case LookingAway => c.lookingAway
    case NoFaceDetected => c.noFaceDetected
    case MultipleFaces => c.multipleFaces
    case SuspiciousObjects => c.suspiciousObjects
  }

  /** `violations.<v> += 1`: exactly one counter goes up, by one. */
  function Bump(c: Counters, v: Violation): (r: Counters)
    ensures Count(r, v) == Count(c, v) + 1
    ensures forall w | w != v :: Count(r, w) == Count(c, w)
  {
    match v
    case LookingAway => c.(lookingAway := c.lookingAway + 1)
    case NoFaceDetected => c.(noFaceDetected := c.noFaceDetected + 1)
    case MultipleFaces => c.(multipleFaces := c.multipleFaces + 1)
    case SuspiciousObjects => c.(suspiciousObjects := c.suspiciousObjects + 1)
  }

  /** Points deducted per incident of each category. */
  function Weight(v: Violation): nat
  {
    match v
    case LookingAway => 5
    case NoFaceDetected => 10
    case MultipleFaces => 15
    case SuspiciousObjects => 20
  }

  /** The number of incidents over all four categories. */
  function Total(c: Counters): nat
  {
    c.lookingAway + c.noFaceDetected + c.multipleFaces + c.suspiciousObjects
  }

  /** The points the counters deduct before clamping: each incident costs its
      category's `Weight`. */
  function Deduction(c: Counters): nat
  {
    5 * c.lookingAway + 10 * c.noFaceDetected + 15 * c.multipleFaces + 20 * c.suspiciousObjects
  }

  /** `calculateIntegrityScore`: 100 less the deductions, never below 0. */
  function IntegrityScore(c: Counters): (r: int)
    ensures 0 <= r <= 100
    ensures r == 100 <==> Total(c) == 0
    ensures r == 0 <==> Deduction(c) >= 100
    ensures 0 < r ==> r + Deduction(c) == 100
  {
    if 100 - Deduction(c) < 0 then 0 else 100 - Deduction(c)
  }

  /** Recomputing from scratch after one more incident is the same as deducting
      that incident's weight from the old score and clamping at 0, so the score
      needs no incremental bookkeeping and never goes up. */
  lemma ScoreAfterBump(c: Counters, v: Violation)
    ensures IntegrityScore(Bump(c, v)) == if IntegrityScore(c) < Weight(v) then 0 else IntegrityScore(c) - Weight(v)
    ensures IntegrityScore(Bump(c, v)) <= IntegrityScore(c)
  {
    assert Deduction(Bump(c, v)) == Deduction(c) + Weight(v);
  }

  /** More incidents in every category never give a higher score. */
  lemma ScoreAntitone(c: Counters, d: Counters)
    requires forall v :: Count(c, v) <= Count(d, v)
    ensures IntegrityScore(d) <= IntegrityScore(c)
  {
    assert Count(c, LookingAway) <= Count(d, LookingAway);
    assert Count(c, NoFaceDetected) <= Count(d, NoFaceDetected);
    assert Count(c, MultipleFaces) <= Count(d, MultipleFaces);
    assert Count(c, SuspiciousObjects) <= Count(d, SuspiciousObjects);
  }

  /** Worked values of the scorer. */
  lemma ScoreExamples()
    ensures IntegrityScore(Counters(20, 0, 0, 0)) == 0
    ensures IntegrityScore(Counters(0, 0, 0, 6)) == 0
    ensures IntegrityScore(Counters(3, 1, 1, 1)) == 40
  {
    assert Deduction(Counters(20, 0, 0, 0)) == 100;
    assert Deduction(Counters(0, 0, 0, 6)) == 120;
    assert Deduction(Counters(3, 1, 1, 1)) == 60;
  }

  /*** The session record ***/

  datatype Session = Session(
    id: string,
    candidateName: string,
    candidateEmail: string,
    interviewTitle: string,
    startTime: int,            // milliseconds
    endTime: Option<int>,      // milliseconds
    duration: Option<int>,     // whole seconds
    events: seq<Event>,
    violations: Counters,
    integrityScore: int,
    status: Status,
    videoRecorded: bool)

  /** The stored score is the one the counters determine. */
  predicate ScoreConsistent(s: Session)
  {
    s.integrityScore == IntegrityScore(s.violations)
  }

  /** A session as the schema defaults build it at `now`. */
  function Fresh(id: string, name: string, email: string, title: string, now: int): (s: Session)
    ensures s.status == Active && !s.videoRecorded
    ensures s.violations == NoViolations && s.integrityScore == 100
    ensures s.events == [] && s.endTime == None && s.duration == None
    ensures s.candidateName == name && s.candidateEmail == email && s.interviewTitle == title
    ensures s.id == id && s.startTime == now
  {
    Session(id, name, email, title, now, None, None, [], NoViolations, 100, Active, false)
  }

  /** The default score is the one the zero counters determine. */
  lemma FreshScoreConsistent(id: string, name: string, email: string, title: string, now: int)
    ensures ScoreConsistent(Fresh(id, name, email, title, now))
  {
  }

  /** `calculateIntegrityScore` as a transition: the stored score is replaced by the
      one the counters determine and nothing else changes. */
  function Rescore(s: Session): (r: Session)
    ensures ScoreConsistent(r)
    ensures r.(integrityScore := s.integrityScore) == s
    ensures ScoreConsistent(s) ==> r == s
  {
    s.(integrityScore := IntegrityScore(s.violations))
  }

  /*** The report ***/

  datatype Recommendation = Pass | Review | Fail

  function RecommendationLabel(r: Recommendation): string
  {
    match r
    case Pass => "PASS"
    case Review => "REVIEW"
    case Fail => "FAIL"
  }

  /** Orders the bands from worst to best. */
  function Rank(r: Recommendation): nat
  {
    match r
    case Fail => 0
    case Review => 1
    case Pass => 2
  }

  /** The recommendation band of a score; each band includes its lower bound. */
  function Recommend(score: int): (r: Recommendation)
    ensures r == Pass <==> 80 <= score
    ensures r == Review <==> 60 <= score < 80
    ensures r == Fail <==> score < 60
  {
    if score >= 80 then Pass else if score >= 60 then Review else Fail
  }

  /** A higher score never gets a worse band. */
  lemma RecommendMonotone(a: int, b: int)
    requires a <= b
    ensures Rank(Recommend(a)) <= Rank(Recommend(b))
  {
  }

  /** The band boundaries. */
  lemma RecommendBoundaries()
    ensures Recommend(80) == Pass && Recommend(79) == Review
    ensures Recommend(60) == Review && Recommend(59) == Fail
  {
  }

  /** JavaScript's `%` for a positive divisor: the remainder takes the dividend's sign. */
  function JsRem(a: int, b: int): (r: int)
    requires b > 0
    ensures -b < r < b
    ensures a >= 0 ==> r == a % b
    ensures a < 0 ==> r <= 0
    ensures (a - r) % b == 0
  {
    if a >= 0 then
      MultipleHasNoRemainder(a - a % b, b, a / b);
      a % b
    else
      var m := (-a) % b;
      MultipleHasNoRemainder(a + m, b, -((-a) / b));
      -m
  }

  /** A multiple of `b` leaves no remainder. */
  lemma MultipleHasNoRemainder(x: int, b: int, c: int)
    requires b > 0 && x == c * b
    ensures x % b == 0
  {
    var q := x / b;
    var m := x % b;
    assert x == q * b + m;
    assert (c - q) * b == m;
    if c - q >= 1 {
      AtLeastOneMultiple(c - q, b);
    } else if c - q <= -1 {
      AtLeastOneMultiple(q - c, b);
    }
  }

  lemma AtLeastOneMultiple(k: int, b: int)
    requires k >= 1 && b > 0
    ensures k * b >= b
  {
  }

  /** The `durationFormatted` field: "<minutes>m <seconds>s", or "N/A" when the
      duration is missing or 0 (the JavaScript tests `duration` for truthiness).
      Minutes are floored; seconds keep the sign of the duration. */
  function FormatDuration(d: Option<int>): (r: string)
    ensures r == "N/A" <==> d.None? || d.value == 0
  {
    if d.None? || d.value == 0 then "N/A"
    else
      var r := IntToString(d.value / 60) + "m " + IntToString(JsRem(d.value, 60)) + "s";
      assert r[|r| - 1] == 's';
      r
  }

  /** Reads back a "<minutes>m <seconds>s" text with seconds below 60. */
  function ParseDuration(t: string): Option<int>
  {
    var k := IndexOf(t, 'm');
    if k + 3 <= |t| && t[k + 1] == ' ' && t[|t| - 1] == 's' then
      match (ParseNat(t[..k]), ParseNat(t[k + 2..|t| - 1]))
      case (Some(m), Some(sec)) => if sec < 60 then Some(60 * m + sec) else None
      case _ => None
    else None
  }

  /** Two digit runs joined as "<a>m <b>s" read back as 60 * a + b. */
  lemma ReadBackSplit(a: string, b: string, m: nat, sec: nat)
    requires ParseNat(a) == Some(m) && ParseNat(b) == Some(sec) && sec < 60
    ensures ParseDuration(a + "m " + b + "s") == Some(60 * m + sec)
  {
    var t := a + "m " + b + "s";
    assert forall j | 0 <= j < |a| :: t[j] == a[j] && IsDigit(a[j]);
    assert t[|a|] == 'm';
    assert IndexOf(t, 'm') == |a|;
    assert t[..|a|] == a;
    assert t[|a| + 2..|t| - 1] == b;
  }

  /** A positive duration is recovered exactly from its formatted text, so the
      minutes/seconds split loses nothing. */
  lemma FormatDurationRoundTrip(d: int)
    requires d > 0
    ensures ParseDuration(FormatDuration(Some(d))) == Some(d)
  {
    var a := NatToString(d / 60);
    var b := NatToString(d % 60);
    assert JsRem(d, 60) == d % 60;
    assert IntToString(d / 60) == a && IntToString(JsRem(d, 60)) == b;
    assert FormatDuration(Some(d)) == a + "m " + b + "s";
    ParseNatToString(d / 60);
    ParseNatToString(d % 60);
    ReadBackSplit(a, b, d / 60, d % 60);
  }

  /** Worked values of the formatter. */
  lemma FormatDurationExamples()
    ensures FormatDuration(Some(125)) == "2m 5s"
    ensures FormatDuration(None) == "N/A" && FormatDuration(Some(0)) == "N/A"
  {
    assert NatToString(2) == "2";
    assert NatToString(5) == "5";
  }

  /** The event log with every severity=info event removed. */
  function NonInfo(events: seq<Event>): (r: seq<Event>)
    ensures |r| <= |events|
    ensures forall e | e in r :: e in events && e.severity != Info
    ensures forall e | e in events && e.severity != Info :: e in r
  {
    if |events| == 0 then []
    else if events[0].severity == Info then NonInfo(events[1..])
    else [events[0]] + NonInfo(events[1..])
  }

  /** Filtering commutes with concatenation, so the kept events stay in log order. */
  lemma {:induction false} NonInfoAppend(a: seq<Event>, b: seq<Event>)
    ensures NonInfo(a + b) == NonInfo(a) + NonInfo(b)
  {
    if |a| > 0 {
      assert (a + b)[0] == a[0];
      assert (a + b)[1..] == a[1..] + b;
      NonInfoAppend(a[1..], b);
      if a[0].severity == Info {
        assert NonInfo(a + b) == NonInfo(a[1..] + b);
      } else {
        assert NonInfo(a + b) == [a[0]] + NonInfo(a[1..] + b);
      }
    } else {
      assert a + b == b;
    }
  }

  /** The report returned by `generateReport`. */
  datatype Report = Report(
    candidateName: string,
    candidateEmail: string,
    interviewTitle: string,
    startTime: int,
    endTime: Option<int>,
    duration: Option<int>,
    durationFormatted: string,
    violations: Counters,
    total: nat,
    events: seq<Event>,
    integrityScore: int,
    recommendation: Recommendation,
    videoRecorded: bool)

  /** `generateReport`: a read-only projection of the session. */
  function GenerateReport(s: Session): (r: Report)
    ensures r.violations == s.violations
    ensures r.total == s.violations.lookingAway + s.violations.noFaceDetected
                     + s.violations.multipleFaces + s.violations.suspiciousObjects
    ensures forall e :: e in r.events <==> e in s.events && e.severity != Info
    ensures |r.events| <= |s.events|
    ensures r.events == NonInfo(s.events)
    ensures r.durationFormatted == FormatDuration(s.duration)
    ensures r.integrityScore == s.integrityScore
    ensures r.recommendation == Pass <==> 80 <= s.integrityScore
    ensures r.recommendation == Fail <==> s.integrityScore < 60
    ensures r.durationFormatted == "N/A" <==> s.duration.None? || s.duration.value == 0
    ensures r.candidateName == s.candidateName && r.candidateEmail == s.candidateEmail
    ensures r.interviewTitle == s.interviewTitle && r.videoRecorded == s.videoRecorded
    ensures r.startTime == s.startTime && r.endTime == s.endTime && r.duration == s.duration
  {
    Report(s.candidateName, s.candidateEmail, s.interviewTitle,
           s.startTime, s.endTime, s.duration, FormatDuration(s.duration),
           s.violations, Total(s.violations), NonInfo(s.events),
           s.integrityScore, Recommend(s.integrityScore), s.videoRecorded)
  }

  /** For a session whose stored score matches its counters, the incident total
      alone bounds the recommendation: one incident or none always passes, and
      nine or more always fail. */
  lemma ReportBandFromTotal(s: Session)
    requires ScoreConsistent(s)
    ensures GenerateReport(s).total <= 1 ==> GenerateReport(s).recommendation == Pass
    ensures GenerateReport(s).total >= 9 ==> GenerateReport(s).recommendation == Fail
  {
    var c := s.violations;
    assert 5 * Total(c) <= Deduction(c) <= 20 * Total(c);
  }
}

=== FILE: strings.dfy ===
/** The handful of JavaScript string operations the proctoring core relies on:
    `includes`, `trim` and the `\s` class, ASCII `toLowerCase`, integral Number
    printing and `Array.prototype.join`. */
module Strings {
  import opened Wrappers

  /*** Substring search ***/

  /** `sub` occurs in `s` starting at index `i`. */
  predicate OccursAt(s: string, sub: string, i: nat)
  {
    i + |sub| <= |s| && s[i..i + |sub|] == sub
  }

  /** `s.includes(sub)`: `sub` occurs somewhere in `s`; the empty string occurs everywhere. */
  predicate Contains(s: string, sub: string)
  {
    exists i: nat | i <= |s| :: OccursAt(s, sub, i)
  }

  /** Every character of an occurring substring is a character of the string, so a
      phrase holding a character the text lacks cannot occur in it. */
  lemma ContainsChar(s: string, sub: string, c: char)
    requires Contains(s, sub) && c in sub
    ensures c in s
  {
    var i: nat :| i <= |s| && OccursAt(s, sub, i);
    var k :| 0 <= k < |sub| && sub[k] == c;
    assert s[i..i + |sub|][k] == s[i + k];
  }

  /** An occurrence survives putting more text on either side. */
  lemma ContainsExtend(a: string, b: string, sub: string)
    requires Contains(a, sub)
    ensures Contains(a + b, sub) && Contains(b + a, sub)
  {
    var i: nat :| i <= |a| && OccursAt(a, sub, i);
    assert (a + b)[i..i + |sub|] == a[i..i + |sub|];
    assert OccursAt(a + b, sub, i);
    assert (b + a)[|b| + i..|b| + i + |sub|] == a[i..i + |sub|];
    assert OccursAt(b + a, sub, |b| + i);
  }

  /*** Whitespace and trim ***/

  /** ECMAScript WhiteSpace or LineTerminator: what `String.prototype.trim` strips
      and what the regular-expression class `\s` matches. */
  predicate IsJsSpace(c: char)
  {
    || c == '\t' || c == '\n' || c == '\U{B}' || c == '\U{C}' || c == '\r' || c == ' '
    || c == '\U{A0}' || c == '\U{1680}' || ('\U{2000}' <= c <= '\U{200A}')
    || c == '\U{2028}' || c == '\U{2029}' || c == '\U{202F}' || c == '\U{205F}'
    || c == '\U{3000}' || c == '\U{FEFF}'
  }

  /** Every character of `s` is whitespace (vacuously so for the empty string). */
  predicate Blank(s: string)
  {
    forall i | 0 <= i < |s| :: IsJsSpace(s[i])
  }

  /** The number of whitespace characters `s` starts with. */
  function LeadingSpaces(s: string): (k: nat)
    ensures k <= |s|
    ensures forall i | 0 <= i < k :: IsJsSpace(s[i])
    ensures k < |s| ==> !IsJsSpace(s[k])
  {
    if |s| > 0 && IsJsSpace(s[0]) then
      var k := LeadingSpaces(s[1..]);
      assert forall i | 1 <= i < k + 1 :: s[i] == s[1..][i - 1];
      k + 1
    else 0
  }

  /** The index at which the whitespace `s` ends with begins. */
  function TrailingStart(s: string): (k: nat)
    ensures k <= |s|
    ensures forall i | k <= i < |s| :: IsJsSpace(s[i])
    ensures k > 0 ==> !IsJsSpace(s[k - 1])
  {
    if |s| > 0 && IsJsSpace(s[|s| - 1]) then
      var k := TrailingStart(s[..|s| - 1]);
      assert forall i | k <= i < |s| - 1 :: s[i] == s[..|s| - 1][i];
      k
    else |s|
  }

  /** `s.trim()`: the slice of `s` between its leading and its trailing whitespace.
      It is empty exactly when `s` is blank, and otherwise starts and ends with a
      non-whitespace character. */
  function Trim(s: string): (r: string)
    ensures r == "" <==> Blank(s)
    ensures |r| > 0 ==> !IsJsSpace(r[0]) && !IsJsSpace(r[|r| - 1])
    ensures |r| <= |s|
    ensures exists i, j | 0 <= i <= j <= |s| :: r == s[i..j] && Blank(s[..i]) && Blank(s[j..])
  {
    var a := LeadingSpaces(s);
    var t := s[a..];
    var k := TrailingStart(t);
    var r := t[..k];
    assert a < |s| ==> t[0] == s[a];
    assert r == s[a..a + k];
    assert Blank(s[..a]);
    assert Blank(s[a + k..]) by {
      assert forall i | a + k <= i < |s| :: s[i] == t[i - a];
    }
    r
  }

  /*** Case ***/

  /** Maps the letters A-Z to a-z and leaves every other character alone. */
  function LowerChar(c: char): char
  {
    if 'A' <= c <= 'Z' then (c as int + 32) as char else c
  }

  /** `s.toLowerCase()` restricted to ASCII letters: no upper-case ASCII letter is
      left, and every other character stays where it was. */
  function ToLower(s: string): (r: string)
    ensures |r| == |s|
    ensures forall i | 0 <= i < |r| :: !('A' <= r[i] <= 'Z')
    ensures forall i | 0 <= i < |s| && !('A' <= s[i] <= 'Z') :: r[i] == s[i]
    ensures forall i | 0 <= i < |s| && 'A' <= s[i] <= 'Z' :: r[i] as int == s[i] as int + 32
  {
    seq(|s|, i requires 0 <= i < |s| => LowerChar(s[i]))
  }

  /*** Decimal numbers ***/

  predicate IsDigit(c: char)
  {
    '0' <= c <= '9'
  }

  function DigitChar(d: nat): (c: char)
    requires d < 10
    ensures IsDigit(c)
  {
    ('0' as int + d) as char
  }

  function DigitValue(c: char): (d: nat)
    requires IsDigit(c)
    ensures d < 10 && DigitChar(d) == c
  {
    c as int - '0' as int
  }

  /** The decimal text of `n` with no sign and no leading zero, as JavaScript prints
      a non-negative integral Number: a non-empty run of digits. */
  function NatToString(n: nat): (r: string)
    ensures |r| > 0
    ensures forall i | 0 <= i < |r| :: IsDigit(r[i])
    ensures n < 10 <==> |r| == 1
  {
    if n < 10 then [DigitChar(n)] else NatToString(n / 10) + [DigitChar(n % 10)]
  }

  /** Reads a non-empty run of decimal digits; anything else is `None`. */
  function ParseNat(s: string): (r: Option<nat>)
    ensures r.Some? <==> |s| > 0 && forall i | 0 <= i < |s| :: IsDigit(s[i])
  {
    if |s| == 0 || !IsDigit(s[|s| - 1]) then None
    else if |s| == 1 then Some(DigitValue(s[0]))
    else
      match ParseNat(s[..|s| - 1])
      case None => None
      case Some(p) =>
        Some(10 * p + DigitValue(s[|s| - 1]))
  }

  /** Reading back the printed form of a number gives the number. */
  lemma {:induction false} ParseNatToString(n: nat)
    ensures ParseNat(NatToString(n)) == Some(n)
  {
    if n >= 10 {
      var r := NatToString(n);
      assert r[..|r| - 1] == NatToString(n / 10);
      ParseNatToString(n / 10);
    }
  }

  /** The text of an integral Number, with a leading '-' when it is negative. */
  function IntToString(i: int): (r: string)
    ensures |r| > 0
    ensures i < 0 <==> r[0] == '-'
    ensures 0 <= i ==> r == NatToString(i)
  {
    if i < 0 then "-" + NatToString(-i) else NatToString(i)
  }

  /*** Searching and joining ***/

  /** The index of the first `c` in `s`, or `|s|` when there is none. */
  function IndexOf(s: string, c: char): (k: nat)
    ensures k <= |s|
    ensures k < |s| ==> s[k] == c
    ensures forall j | 0 <= j < k :: s[j] != c
  {
    if |s| == 0 then 0
    else if s[0] == c then 0
    else 1 + IndexOf(s[1..], c)
  }

  /** `parts.join(sep)`. */
  function Join(parts: seq<string>, sep: string): string
  {
    if |parts| == 0 then ""
    else if |parts| == 1 then parts[0]
    else parts[0] + sep + Join(parts[1..], sep)
  }

  /** A character found in neither the parts nor the separator is not in the join. */
  lemma {:induction false} JoinLacks(parts: seq<string>, sep: string, c: char)
    requires c !in sep
    requires forall i | 0 <= i < |parts| :: c !in parts[i]
    ensures c !in Join(parts, sep)
  {
    if |parts| > 1 {
      JoinLacks(parts[1..], sep, c);
    }
  }
}

=== FILE: wrappers.dfy ===
/** Failure-carrying datatypes shared by the whole model. */
module Wrappers {

  /** A value that may be absent: an optional schema field, a lookup that found nothing. */
  datatype Option<+T> = None | Some(value: T)

  /** The outcome of a request handler: the value it answers with, or the error it reports. */
  datatype Result<+T, +E> = Ok(value: T) | Err(error: E)
}
